=== FILE: README.md ===
# TriRide backend core in Dafny

This project models the decision logic of the TriRide ride-hailing backend. Riders request rides, captains (drivers) accept them, and the server prices them, geocodes addresses, authenticates requests and pushes real-time events over sockets. The model covers:

- **Fare pricing and ride construction.** Three per-class constants: base fare, per-km rate and minimum fare. `calculateFare` rounds up to a whole rupee and treats values of 1000 or more as metres. `getFare` raises each fare to its minimum. `createRide` builds a `pending` ride record. (`fare.dfy`)
- **Map-service helpers.** Address cleaning, main-location extraction, the autocomplete suggestion split, the geocoder's first-hit rule, rounding the distance up to 0.1 km, the 30 km/h duration rule, and the input guard of the captain radius query. (`maps.dfy`, built on the JavaScript string operations in `js_text.dfy`)
- **Ride schema.** The Mongoose ride schema as a validation function: the ObjectId user id, required fields, the two enumerations, the `pending` default, the six-character OTP, and strict mode dropping the undeclared `captain` field. (`ride_model.dfy`)
- **Socket registry.** A state machine over user and captain accounts, each with an optional socket id. Its handlers are `join`, `update-location-captain`, `ride-request`, `ride-accept`, `ride-confirm`, `ride-status-update` and `disconnect`. `join` and `update-location-captain` return the new registry and the messages they emit. The four ride events only emit messages and leave the registry unchanged. `disconnect` only returns the new registry. (`sockets.dfy`)
- **Authentication middlewares.** Where the token is read from, the token shape check, and what `authUser`, `authCaptain`, `authenticateOptional` and `authenticateUser` decide. (`auth.dfy`)
- **Ride controller.** `createRide` with its `new-ride` fan-out to nearby captains; the `confirmRide`/`startRide`/`endRide` guards and rider notification; the active-ride query; and the captain's ride history (completed, newest first, at most ten). (`ride_controller.dfy`)

The model stays pure. Everything the code gets from outside is a parameter: the geocoder's answers, database query results, `jwt.verify`, the blacklist lookup, the great-circle distance and the clock. Numbers are exact reals, and `Math.ceil` is `Common.Ceil`. Strings are sequences of characters.

Four behaviours of the code are easy to miss, and the model keeps them:

- **The fare is not monotone in the distance.** A distance of 1000 or more is divided by 1000 before pricing. So 999 is priced as 999 km, while 1000 is priced as 1 km (`Fare.FareDropsAtThousand`).
- **No OTP is ever generated.** The service builds its ride without an `otp`, so the object it returns does not satisfy the schema (`Fare.CreatedRideFailsSchema`). The service does not save it, so `createRide` still succeeds.
- **No captain hears of a new ride.** `createRide` reads the pickup coordinate's `ltd` and `lng` fields, which the geocoder never sets, so the radius query returns nothing (`RideController.CreateRideHandler`; see Findings).
- **The ride lifecycle is not implemented.** The service exports only `getFare` and `createRide`. The controller's `confirmRide`/`startRide`/`endRide` calls therefore throw a TypeError, and each request answers 500 (`RideController.LifecycleWithShownService`).

## Model

| member | source | states |
|---|---|---|
| Fare.CalculateFare | Backend/services/ride.service.js:44-57 | any type other than "solo"/"share" fails with "Invalid ride type"; otherwise the fare is the least whole number at or above base + km × rate, with km the distance divided by 1000 when it is at least 1000 |
| Fare.FareExamples | Backend/services/ride.service.js:3-11 | 0 km costs 30 solo / 20 share, 10 km costs 180 / 120, 12.3 km costs 215 / 143 |
| Fare.FareMonotoneBelowThousand | Backend/services/ride.service.js:53-56 | below 1000 a longer distance never costs less |
| Fare.FareDropsAtThousand | Backend/services/ride.service.js:53 | 999 is priced 15015 but 1000 only 45, the same as a distance of 1, so the fare drops at the metre threshold |
| Fare.ShareNotAboveSolo | Backend/services/ride.service.js:3-11 | for a non-negative distance the share fare never exceeds the solo fare |
| Fare.GetFare | Backend/services/ride.service.js:18-42 | a failed estimate fails with "Failed to calculate fare: " + its message; otherwise each fare is its calculated fare raised to the class minimum (solo ≥ 30, share ≥ 20), and distance and duration pass through |
| Fare.QuoteForNonNegativeDistance | Backend/services/ride.service.js:27-37 | for a non-negative distance the minimum never binds and the quoted share fare is at most the solo fare |
| Fare.QuoteFromEstimate | Backend/services/ride.service.js:23-37 | with a non-negative great-circle distance, a quote from a successful estimate carries the rounded great-circle distance and its travel minutes, both non-negative, with unclamped fares and share ≤ solo |
| Fare.CreateRide | Backend/services/ride.service.js:59-80 | a failed quote creates nothing and fails with "Failed to create ride: " + its message; otherwise the record copies user, pickup, destination and vehicle type, is `pending`, has no OTP and no captain, is stamped with the clock, and uses the solo fare exactly when the type is "solo" and the share fare for every other value |
| Fare.SoloRideFare | Backend/services/ride.service.js:61-69 | a solo ride over a non-negative distance costs exactly the calculated solo fare |
| Fare.CreatedRideFailsSchema | Backend/services/ride.service.js:63-72 | the record the service builds lacks an OTP, so schema validation rejects it with the otp path among the errors |
| RideModel.ParseVehicleType | Backend/models/ride.model.js:17-21 | only "solo" and "share" are vehicle types, and the parsed value names back to its spelling |
| RideModel.ParseStatus | Backend/models/ride.model.js:26-30 | only the five status spellings are statuses, and the parsed value names back to its spelling |
| RideModel.Violations | Backend/models/ride.model.js:3-41 | each path is reported exactly when it fails: a user id that is missing or does not cast to an ObjectId, a missing fare, an absent or empty pickup/destination/vehicle type, an unknown vehicle type or status (after the `pending` default), or an OTP that is not exactly six characters |
| RideModel.Validate | Backend/models/ride.model.js:3-41 | a record validates exactly when no path fails; a validated ride carries every schema path over, with status defaulting to `pending` and the creation time to the clock, and drops the undeclared `captain` as strict mode does |
| RideModel.ValidateToRecord | Backend/models/ride.model.js:3-41 | a typed ride survives the trip through its document form exactly when its user id is an ObjectId, its addresses are non-empty, its OTP has six characters and it has no captain |
| RideModel.ValidatedIsWellFormed | Backend/models/ride.model.js:3-41 | every validated ride is well formed, and its document form equals the input record with the defaults filled in and `captain` removed |
| JsText.Split | Backend/services/maps.service.js:35-36 | `split` on one character: at least one part, no part contains the separator, and joining the parts with it gives back the string |
| JsText.SplitJoin | Backend/services/maps.service.js:36 | splitting a join of separator-free parts gives back exactly those parts |
| JsText.Trim | Backend/services/maps.service.js:13 | `trim` removes exactly the leading and trailing whitespace run, leaving a contiguous middle with no whitespace at either edge |
| Maps.DropQuotes | Backend/services/maps.service.js:10 | the result has no quote characters, keeps every other character, and keeps the significant characters in order |
| Maps.ReplaceDisallowed | Backend/services/maps.service.js:11 | the length is unchanged and every character becomes a word character, whitespace, comma or hyphen, with the significant characters unchanged |
| Maps.CollapseSpaces | Backend/services/maps.service.js:12 | the only whitespace left is single plain spaces, no two spaces are adjacent, a leading space appears exactly when the input began with whitespace, and the significant characters are unchanged |
| Maps.CollapseSpacesEnds | Backend/services/maps.service.js:12 | collapsing is empty only for empty input and ends with a space exactly when the input ends with whitespace |
| Maps.CollapseSpacesWords | Backend/services/maps.service.js:12 | collapsing keeps the words of the input, so together with the two contracts above every whitespace run has become exactly one space |
| Maps.CollapseSpacesClean | Backend/services/maps.service.js:11-12 | after the disallowed characters are blanked, collapsing leaves only word characters, commas, hyphens and plain spaces |
| Maps.CleanAddress | Backend/services/maps.service.js:7-14 | the result is the words (maximal non-whitespace runs) of the address, after quotes are deleted and other special characters blanked, joined by single spaces; it holds only word characters, commas, hyphens and interior spaces, and keeps the significant characters in order |
| Maps.CleanAddressIdempotent | Backend/services/maps.service.js:9-13 | cleaning a cleaned address changes nothing |
| Maps.CleanAddressDeletesQuotes | Backend/services/maps.service.js:10 | a quote is deleted rather than blanked: cleaning with it equals cleaning without it |
| Maps.CleanAddressBlanksSpecials | Backend/services/maps.service.js:11 | any other disallowed character cleans the same as a space in its place |
| Maps.MainLocation | Backend/services/maps.service.js:17-21 | the result is the trimmed text before the first comma, which holds no comma, followed by ", India" |
| Maps.ToSuggestion | Backend/services/maps.service.js:32-37 | mainText is the comma-free text before the first comma; with a comma, display name = mainText + "," + remainder and secondaryText is the trimmed remainder; with none, mainText is the whole name and secondaryText is empty |
| Maps.AutoCompleteSuggestions | Backend/services/maps.service.js:23-42 | one suggestion per hit, in order; a failed request, a missing body or a hit without a display name gives the empty list |
| Maps.AddressCoordinate | Backend/services/maps.service.js:44-62 | the first hit when there is one; no hits and a failed request give the two error messages, each prefixed "Failed to get coordinates: " |
| Maps.RoundUpTenth | Backend/services/maps.service.js:113 | the rounded distance is a multiple of 0.1, not below the raw distance and less than 0.1 above it |
| Maps.TravelMinutes | Backend/services/maps.service.js:87 | the duration in whole minutes is at least twice the km distance and less than that plus one (30 km/h, rounded up) |
| Maps.DistanceTime | Backend/services/maps.service.js:64-99 | the estimate succeeds exactly when both addresses geocode; the first failure is reported with "Failed to calculate distance and time: " prepended; on success the distance is a multiple of 0.1 in [raw, raw + 0.1) of the great-circle distance raw, which is `Math.ceil(raw*10)/10`, and the duration is the whole number of minutes in [2·distance, 2·distance + 1) |
| Maps.RoundUpTenthUnique | Backend/services/maps.service.js:113 | any multiple of 0.1 in [raw, raw + 0.1) is the rounded distance, so the estimate's distance is fixed |
| Maps.RoundingExample | Backend/services/maps.service.js:87-113 | 12.3 km stays 12.3 and takes 25 minutes; 12.31 rounds up to 12.4 |
| Maps.CaptainsInRadius | Backend/services/maps.service.js:126-142 | a non-number or NaN coordinate, or a failed query, gives the empty list; otherwise the query's answer |
| Sockets.Join | Backend/socket.js:29-56 | missing fields or an unknown type emit the matching error, and an unknown account emits "User not found" or "Captain not found", all changing nothing; otherwise the account's socket id becomes the current socket, replacing any earlier one, and no other account changes |
| Sockets.UpdateLocation | Backend/socket.js:59-81 | malformed data or an unknown captain emit the matching error and change nothing; otherwise only that captain's location changes, and not its socket id |
| Sockets.RideRequest | Backend/socket.js:84-97 | exactly one `new-ride-request` with the rider's data goes to every captain whose socket id is set, on that socket, and none goes to anyone else |
| Sockets.NotifyAccount | Backend/socket.js:104-111 | a message goes exactly when the looked-up account exists and has a truthy socket id, and it goes to that socket |
| Sockets.RideAccept | Backend/socket.js:100-116 | exactly one `ride-accepted` with the captain and ride ids, to the user's socket, when the user exists with a truthy socket id; otherwise nothing |
| Sockets.RideConfirm | Backend/socket.js:119-135 | exactly one `ride-confirmed` with the user and ride ids, to the captain's socket, when the captain exists with a truthy socket id; otherwise nothing |
| Sockets.RideStatusUpdate | Backend/socket.js:138-164 | one `ride-status` with the ride id and status to the user exactly when the user has a truthy socket id, and one to the captain likewise, the user's first |
| Sockets.ClearSocket | Backend/socket.js:171-172 | every account on the closed socket loses its socket id; no other account changes, and no location changes |
| Sockets.Disconnect | Backend/socket.js:167-178 | both collections are cleared of the closed socket |
| Sockets.DisconnectIdempotent | Backend/socket.js:171-172 | disconnecting a socket twice equals disconnecting it once |
| Sockets.DisconnectTakesCaptainsOffline | Backend/socket.js:167-178 | after a disconnect no online captain is still on the closed socket, and no captain comes online |
| Sockets.JoinThenDisconnect | Backend/socket.js:29-56 | joining on a socket and then closing it leaves the account offline and every other account as the disconnect alone would |
| Auth.HeaderToken | Backend/middlewares/auth.middleware.js:10 | the token is the text between the header's first and second space, present exactly when the header has a space |
| Auth.HeaderTokenIsField | Backend/middlewares/auth.middleware.js:10 | the header token holds no space and ends where the header ends or at a space |
| Auth.CookieOrHeaderToken | Backend/middlewares/auth.middleware.js:10-14 | a non-empty cookie wins; otherwise a non-empty header token; an empty value counts as no token |
| Auth.IsValidToken | Backend/middlewares/auth.middleware.js:111-115 | false for a missing or empty token; otherwise true exactly when the token has three dot-separated base64url segments, the first two non-empty |
| Auth.ValidTokenSegments | Backend/middlewares/auth.middleware.js:114 | a valid token is its three segments joined by dots, the first two non-empty and all over the alphabet |
| Auth.SegmentsFormValidToken | Backend/middlewares/auth.middleware.js:114 | three segments over the alphabet joined by dots form a valid token exactly when the first two are non-empty |
| Auth.TokenWithEmptySignature | Backend/middlewares/auth.middleware.js:114 | the last segment may be empty |
| Auth.TokenWithEmptyHeader | Backend/middlewares/auth.middleware.js:114 | the first segment may not be empty |
| Auth.AuthUser | Backend/middlewares/auth.middleware.js:8-41 | proceeds exactly when a token is present, the blacklist lookup answers "not listed", the token verifies and the lookup finds the user, who becomes the user; otherwise 401 with "No authentication token, access denied", "Token has been blacklisted", "Invalid token", "Token has expired" or "User not found", and 500 when the blacklist lookup, verification or user lookup fails otherwise |
| Auth.AuthCaptain | Backend/middlewares/auth.middleware.js:43-70 | every rejection is 401 "Unauthorized"; the request proceeds exactly when the token is present, not blacklisted and verified and the lookup succeeds, with the looked-up captain (possibly none) as the captain |
| Auth.CookieWins | Backend/middlewares/auth.middleware.js:10-14 | with a non-empty cookie token the Authorization header makes no difference to either middleware |
| Auth.AuthenticateOptional | Backend/middlewares/auth.middleware.js:76-107 | never rejects; role "user" sets only the user, role "captain" only the captain, anything else neither |
| Auth.BearerToken | Backend/middlewares/auth.middleware.js:120-123 | no token unless the header starts with "Bearer "; then the text after it up to the next space |
| Auth.AuthenticateUser | Backend/middlewares/auth.middleware.js:117-148 | no "Bearer " header or a badly shaped token answers 401 "No authentication token, access denied"; a well-shaped token that fails verification answers 401 "Token is not valid"; the request proceeds exactly when the token is well shaped and verifies, with the payload as the user |
| RideController.NewRideFanout | Backend/controllers/ride.controller.js:32-39 | each message is a `new-ride` with the ride, sent on the socket of a captain in the query result; each account gets as many messages as it has result entries with a socket id |
| RideController.FanoutExactlyOnce | Backend/controllers/ride.controller.js:32-39 | when the result lists each captain once, each captain with a socket id gets exactly one `new-ride` and every other account none |
| RideController.NotifyCaptainsAsWritten | Backend/controllers/ride.controller.js:25-29 | reading `ltd`/`lng` from a coordinate that has only `lat`/`lon` makes the radius query's guard fire, so nobody is ever notified |
| RideController.NotifyCaptains | Backend/controllers/ride.controller.js:23-43 | with the pickup geocoded and both lookups successful, the 2 km result is fanned out; any failure sends nothing |
| RideController.AsWrittenMissesNearbyCaptain | Backend/controllers/ride.controller.js:26 | with one online captain in range, the corrected phase notifies that captain and the written one does not |
| RideController.CreateRideHandler | Backend/controllers/ride.controller.js:7-55 | invalid input answers 400 and no user id answers 401; a failed creation answers 500 with its message; otherwise 201 with the created ride; and no message is ever sent, because the notification phase reads coordinate fields that do not exist |
| RideController.CreateRideHandlerCorrected | Backend/controllers/ride.controller.js:7-55 | with `lat`/`lon` read instead, the answer is the same as the code's in every case, and after a 201 the 2 km query result is fanned out |
| RideController.NotificationNeverFailsCreation | Backend/controllers/ride.controller.js:40-46 | with the corrected notification phase, the answer is the same whatever that phase meets |
| RideController.LifecycleHandler | Backend/controllers/ride.controller.js:74-165 | invalid input answers 400 and no captain answers 401; a service failure answers 500 with its message; otherwise 200 with the ride, and the op's event (`ride-confirmed`, `ride-started`, `ride-ended`) goes to the rider exactly when the populated user has a socket id |
| RideController.LifecycleGuardPrecedesService | Backend/controllers/ride.controller.js:84-88 | without a captain the outcome is 401 whatever the service would do |
| RideController.LifecycleWithShownService | Backend/services/ride.service.js:82-85 | since the service has no lifecycle functions, every authenticated lifecycle request answers 500 and notifies nobody |
| RideController.FirstActiveRide | Backend/controllers/ride.controller.js:174-177 | the first ride of this captain that is confirmed or started, and none exactly when there is no such ride |
| RideController.ActiveRideHandler | Backend/controllers/ride.controller.js:168-188 | 401 without a captain; 500 on a failed query; 404 exactly when the captain has no confirmed or started ride; when one exists, 200 with the first such ride in store order |
| RideController.CompletedRides | Backend/controllers/ride.controller.js:197-199 | the filter keeps each of this captain's completed rides as often as it occurs, and nothing else |
| RideController.SortByNewest | Backend/controllers/ride.controller.js:200 | a permutation of its input with creation times non-increasing |
| RideController.RideHistory | Backend/controllers/ride.controller.js:197-200 | only this captain's completed rides, newest first, as many as exist up to ten, each at most as often as stored, and every one left out no newer than any kept |
| RideController.RideHistoryHandler | Backend/controllers/ride.controller.js:191-207 | 401 without a captain; 500 on a failed query; otherwise 200 with the captain's ride history: as many completed rides as exist up to ten, newest first |

## Left out

- The haversine formula is a parameter. Floating-point trigonometry is out of scope. Only the rounding and the duration around it are modelled, and `Fare.QuoteFromEstimate` assumes the parameter is non-negative.
- Reals are exact. IEEE-754 rounding of `distance / 1000`, of `* 10`, and of `parseFloat` is not modelled.
- Nominatim requests, URL encoding, axios and the rate-limit delay are not modelled. Their outcomes are the `Fetch` and `GeoResponse` parameters.
- MongoDB queries and updates are represented by their results, passed as parameters. Not modelled: the `$geoWithin`/`$centerSphere` geometry, `populate`, `findById` casting errors, write failures and their `Internal server error`/`Failed to update location` errors, and the `captainModel.find` failure of `ride-request`. `populate` does not appear in the payloads.
- The query order is not modelled. `RideController.FirstActiveRide` takes the first match in store order, which is the order a `findOne` without a sort returns. `RideController.SortByNewest` orders rides with equal creation times one particular way; the database may order such ties differently.
- A missing captain id is matched against a missing `captain` field. The driver serialises an undefined filter value as null. Mongoose `strictQuery` handling of the undeclared `captain` path is not modelled.
- `jwt.verify`, bcrypt and the blacklist lookup are parameters. The blacklist lookup may fail in `authUser`, where its failure answers 500. In `authCaptain` it is a total predicate: a rejected lookup there happens outside its `try`, and that unhandled rejection is not modelled. The `Server error in authentication` branch of `authenticateUser` cannot be reached from the modelled inputs.
- OTP generation and matching, and the ride state transitions behind confirm/start/end, do not exist in the service. Only the controller's guards and notification rule are modelled, over a service outcome given as a parameter.
- The `validateToken`/`refreshToken` stubs, the maps controllers and routes, and the `getFare` controller are not modelled. They only check presence and forward to the modelled services.
- express-validator's request checks are one boolean, `validationOk`. The 400 body lists no individual errors.
- The socket.io server configuration, `server.js` and the database connection are out of scope. So is the uninitialised-`io` branch of `sendMessageToSocketId`: every emitted message is recorded as sent.
- The frontend is out of scope.
- Which strings Mongoose's ObjectId cast accepts depends on the driver version (24 hex digits always, 12-character strings in some versions). It is the parameter `isObjectId`, and a rejected id is reported as a `userId` violation.
- RideModel.Validate counts the OTP length in Unicode scalar values. JavaScript counts UTF-16 code units, which differ for characters outside the Basic Multilingual Plane.
- The ride `createdAt` is an integer millisecond clock value, not a `Date`.

## Findings

| source | as written | input that shows it | evidently intended | confidence | as-written member | corrected member |
|---|---|---|---|---|---|---|
| Backend/controllers/ride.controller.js:26 | passes `pickupCoordinates.ltd` and `pickupCoordinates.lng` to the radius query. `getAddressCoordinate` returns `{ lat, lon }` (Backend/services/maps.service.js:54-57), so both arguments are undefined, the query's guard returns `[]`, and no captain ever receives `new-ride` | a pickup that geocodes to (12.9, 77.6), with one captain within 2 km whose socket id is "sock-1" | pass `pickupCoordinates.lat` and `pickupCoordinates.lon`, so every captain within 2 km that has a socket is notified | high; not executed | RideController.NotifyCaptainsAsWritten (counterexample RideController.AsWrittenMissesNearbyCaptain) | RideController.NotifyCaptains (used by RideController.CreateRideHandlerCorrected; fan-out proved in RideController.NewRideFanout and RideController.FanoutExactlyOnce) |

=== FILE: auth.dfy ===
/** Request authentication (Backend/middlewares/auth.middleware.js): where
    the token is read from, the token shape check, and what each middleware
    decides. Signature verification, the blacklist and the account lookups
    are parameters. */
module Auth {
  import opened Common
  import opened JsText

  /** The parts of a request the middlewares read: the `token` cookie and the
      Authorization header. */
  datatype Request = Request(cookieToken: Option<string>, authorization: Option<string>)

  /** A decoded token payload or an account document: its id and role. */
  datatype Identity = Identity(id: Option<string>, role: Option<string>)

  /** The outcome of `jwt.verify`. */
  datatype Verification = Verified(payload: Identity)
                        | JsonWebTokenError
                        | TokenExpiredError
                        | OtherVerifyError

  /** What a middleware did: pass the request on with `req.user` and
      `req.captain` as set, or answer with a status and message. */
  datatype Outcome = Proceed(user: Option<Identity>, captain: Option<Identity>)
                   | Reject(status: int, message: string)

  // ---------------------------------------------------------------------
  // Token extraction
  // ---------------------------------------------------------------------

  /** `authorization?.split(' ')[1]`: the second space-separated field of the
      header, i.e. the text between its first and second space. */
  function HeaderToken(authorization: Option<string>): (t: Option<string>)
    ensures t.Some? <==> authorization.Some? && ' ' in authorization.value
    ensures t.Some? ==>
      var h := authorization.value;
      var i := |BeforeFirst(h, ' ')|;
      && i < |h| && h[i] == ' '
      && t.value == BeforeFirst(h[i + 1..], ' ')
  {
    match authorization
    case None => None
    case Some(h) =>
      var fields := Split(h, ' ');
      if |fields| < 2 then None
      else
        SplitHead(h, ' ');
        SplitFirstPart(h, ' ');
        SplitFirstPart(h[|BeforeFirst(h, ' ')| + 1..], ' ');
        Some(fields[1])
  }

  /** The header token is never blank-padded: it holds no space, and it is
      followed by the end of the header or by a space. */
  lemma HeaderTokenIsField(h: string)
    requires HeaderToken(Some(h)).Some?
    ensures var t := HeaderToken(Some(h)).value;
      var i := |BeforeFirst(h, ' ')|;
      && ' ' !in t
      && ' ' !in h[..i]
      && i + 1 + |t| <= |h|
      && h[i + 1..i + 1 + |t|] == t
      && (i + 1 + |t| == |h| || h[i + 1 + |t|] == ' ')
  {
  }

  /** `req.cookies.token || req.headers.authorization?.split(' ')[1]`, with an
      empty result counted as missing (`!token`). A non-empty cookie wins
      over the header. */
  function CookieOrHeaderToken(req: Request): (t: Option<string>)
    ensures t.Some? ==> t.value != ""
    ensures Truthy(req.cookieToken) ==> t == req.cookieToken
    ensures !Truthy(req.cookieToken) && Truthy(HeaderToken(req.authorization)) ==>
      t == HeaderToken(req.authorization)
    ensures t.None? <==> !Truthy(req.cookieToken) && !Truthy(HeaderToken(req.authorization))
  {
    if Truthy(req.cookieToken) then req.cookieToken
    else
      var h := HeaderToken(req.authorization);
      if Truthy(h) then h else None
  }

  // ---------------------------------------------------------------------
  // isValidToken
  // ---------------------------------------------------------------------

  /** The base64url alphabet of section 5 of RFC 4648. */
  predicate IsBase64UrlChar(c: char)
  {
    ('A' <= c <= 'Z') || ('a' <= c <= 'z') || ('0' <= c <= '9') || c == '-' || c == '_'
  }

  predicate IsBase64Url(s: string)
  {
    forall k :: 0 <= k < |s| ==> IsBase64UrlChar(s[k])
  }

  /** Three dot-separated base64url segments, the first two non-empty: the
      shape of the JWS Compact Serialization (section 7.1 of RFC 7515) that
      the token pattern accepts. */
  predicate HasJwsShape(t: string)
  {
    var parts := Split(t, '.');
    && |parts| == 3
    && parts[0] != "" && parts[1] != ""
    && IsBase64Url(parts[0]) && IsBase64Url(parts[1]) && IsBase64Url(parts[2])
  }

  /** `isValidToken`: false for a missing or empty token, otherwise whether
      the token has the JWS shape. */
  function IsValidToken(token: Option<string>): (b: bool)
    ensures token.None? || token.value == "" ==> !b
    ensures b <==> token.Some? && HasJwsShape(token.value)
  {
    if !Truthy(token) then false
    else HasJwsShape(token.value)
  }

  /** A valid token is three segments over the alphabet, joined by dots, the
      first two non-empty. */
  lemma ValidTokenSegments(t: string)
    requires IsValidToken(Some(t))
    ensures var parts := Split(t, '.');
      && t == parts[0] + "." + parts[1] + "." + parts[2]
      && parts[0] != "" && parts[1] != ""
      && IsBase64Url(parts[0]) && IsBase64Url(parts[1]) && IsBase64Url(parts[2])
  {
    var parts := Split(t, '.');
    assert parts[1..][1..] == [parts[2]];
    assert Join(parts[1..], '.') == parts[1] + ['.'] + parts[2];
    assert Join(parts, '.') == parts[0] + ['.'] + (parts[1] + ['.'] + parts[2]);
  }

  /** Conversely, three segments over the alphabet joined by dots form a valid
      token exactly when the first two are non-empty. */
  lemma SegmentsFormValidToken(a: string, b: string, c: string)
    requires IsBase64Url(a) && IsBase64Url(b) && IsBase64Url(c)
    ensures IsValidToken(Some(a + "." + b + "." + c)) <==> a != "" && b != ""
  {
    var parts := [a, b, c];
    assert '.' !in a by { assert forall k :: 0 <= k < |a| ==> a[k] != '.'; }
    assert '.' !in b by { assert forall k :: 0 <= k < |b| ==> b[k] != '.'; }
    assert '.' !in c by { assert forall k :: 0 <= k < |c| ==> c[k] != '.'; }
    assert Join(parts, '.') == a + "." + b + "." + c by {
      assert Join(parts[1..], '.') == b + ['.'] + c by {
        assert parts[1..][1..] == [c];
      }
    }
    SplitJoin(parts, '.');
  }

  /** The signature segment may be empty. */
  lemma TokenWithEmptySignature()
    ensures IsValidToken(Some("ab.c-d."))
  {
    SegmentsFormValidToken("ab", "c-d", "");
    assert "ab" + "." + "c-d" + "." + "" == "ab.c-d.";
  }

  /** The header segment may not be empty. */
  lemma TokenWithEmptyHeader()
    ensures !IsValidToken(Some(".c_d.e"))
  {
    SegmentsFormValidToken("", "c_d", "e");
    assert "" + "." + "c_d" + "." + "e" == ".c_d.e";
  }

  // ---------------------------------------------------------------------
  // The middlewares
  // ---------------------------------------------------------------------

  /** `authUser`: a token from the cookie or the header, not blacklisted,
      verified, and naming an existing user. Missing, blacklisted, malformed,
      expired or orphaned tokens answer 401; any other failure answers 500.
      `blacklist` is the blacklist lookup and `findUser` the account lookup;
      both may fail, and both run inside the middleware's `try`. */
  function AuthUser(req: Request, blacklist: string -> Result<bool, string>, verify: string -> Verification,
                    findUser: Option<string> -> Result<Option<Identity>, string>): (r: Outcome)
    ensures CookieOrHeaderToken(req).None? ==> r == Reject(401, "No authentication token, access denied")
    ensures CookieOrHeaderToken(req).Some? ==>
      var token := CookieOrHeaderToken(req).value;
      && (blacklist(token) == Ok(true) ==> r == Reject(401, "Token has been blacklisted"))
      && (blacklist(token).Err? ==> r == Reject(500, "Internal server error during authentication"))
      && (blacklist(token) == Ok(false) ==>
            && (verify(token).JsonWebTokenError? ==> r == Reject(401, "Invalid token"))
            && (verify(token).TokenExpiredError? ==> r == Reject(401, "Token has expired"))
            && (verify(token).OtherVerifyError? ==> r == Reject(500, "Internal server error during authentication"))
            && (verify(token).Verified? && findUser(verify(token).payload.id).Err? ==>
                  r == Reject(500, "Internal server error during authentication"))
            && (verify(token).Verified? && findUser(verify(token).payload.id) == Ok(None) ==>
                  r == Reject(401, "User not found")))
    ensures r.Proceed? <==>
      && CookieOrHeaderToken(req).Some?
      && blacklist(CookieOrHeaderToken(req).value) == Ok(false)
      && verify(CookieOrHeaderToken(req).value).Verified?
      && findUser(verify(CookieOrHeaderToken(req).value).payload.id).Ok?
      && findUser(verify(CookieOrHeaderToken(req).value).payload.id).value.Some?
    ensures r.Proceed? ==>
      && r.user == findUser(verify(CookieOrHeaderToken(req).value).payload.id).value
      && r.captain.None?
  {
    match CookieOrHeaderToken(req)
    case None => Reject(401, "No authentication token, access denied")
    case Some(token) =>
      match blacklist(token)
      case Err(_) => Reject(500, "Internal server error during authentication")
      case Ok(true) => Reject(401, "Token has been blacklisted")
      case Ok(false) =>
        match verify(token)
        case JsonWebTokenError => Reject(401, "Invalid token")
        case TokenExpiredError => Reject(401, "Token has expired")
        case OtherVerifyError => Reject(500, "Internal server error during authentication")
        case Verified(payload) =>
          match findUser(payload.id)
          case Err(_) => Reject(500, "Internal server error during authentication")
          case Ok(None) => Reject(401, "User not found")
          case Ok(Some(user)) => Proceed(Some(user), None)
  }

  /** `authCaptain`: the same token rules, but every verification or lookup
      failure answers 401, and a verified token whose captain does not exist
      still proceeds, with `req.captain` null. */
  function AuthCaptain(req: Request, isBlacklisted: string -> bool, verify: string -> Verification,
                       findCaptain: Option<string> -> Result<Option<Identity>, string>): (r: Outcome)
    ensures CookieOrHeaderToken(req).None? ==> r == Reject(401, "Unauthorized")
    ensures r.Reject? ==> r == Reject(401, "Unauthorized")
    ensures r.Proceed? <==>
      && CookieOrHeaderToken(req).Some?
      && !isBlacklisted(CookieOrHeaderToken(req).value)
      && verify(CookieOrHeaderToken(req).value).Verified?
      && findCaptain(verify(CookieOrHeaderToken(req).value).payload.id).Ok?
    ensures r.Proceed? ==>
      && r.user.None?
      && r.captain == findCaptain(verify(CookieOrHeaderToken(req).value).payload.id).value
  {
    match CookieOrHeaderToken(req)
    case None => Reject(401, "Unauthorized")
    case Some(token) =>
      if isBlacklisted(token) then Reject(401, "Unauthorized")
      else
        match verify(token)
        case Verified(payload) =>
          (match findCaptain(payload.id)
           case Err(_) => Reject(401, "Unauthorized")
           case Ok(captain) => Proceed(None, captain))
        case _ => Reject(401, "Unauthorized")
  }

  /** Cookie precedence: with a non-empty cookie token, the Authorization
      header makes no difference to `authUser` or `authCaptain`. */
  lemma CookieWins(cookie: string, h1: Option<string>, h2: Option<string>,
                   blacklist: string -> Result<bool, string>, isBlacklisted: string -> bool,
                   verify: string -> Verification, find: Option<string> -> Result<Option<Identity>, string>)
    requires cookie != ""
    ensures AuthUser(Request(Some(cookie), h1), blacklist, verify, find)
         == AuthUser(Request(Some(cookie), h2), blacklist, verify, find)
    ensures AuthCaptain(Request(Some(cookie), h1), isBlacklisted, verify, find)
         == AuthCaptain(Request(Some(cookie), h2), isBlacklisted, verify, find)
  {
  }

  /** `authenticateOptional`: never answers. A verified header token with role
      "user" sets only the user, role "captain" sets only the captain, and
      anything else, including no token or a bad one, sets neither. The
      cookie is not consulted. */
  function AuthenticateOptional(authorization: Option<string>, verify: string -> Verification): (r: Outcome)
    ensures r.Proceed?
    ensures var t := HeaderToken(authorization);
      var ok := Truthy(t) && verify(t.value).Verified?;
      && (r.user.Some? <==> ok && verify(t.value).payload.role == Some("user"))
      && (r.captain.Some? <==> ok && verify(t.value).payload.role == Some("captain"))
      && (r.user.Some? ==> r.user == Some(verify(t.value).payload))
      && (r.captain.Some? ==> r.captain == Some(verify(t.value).payload))
  {
    var t := HeaderToken(authorization);
    if !Truthy(t) then Proceed(None, None)
    else
      match verify(t.value)
      case Verified(payload) =>
        if payload.role == Some("user") then Proceed(Some(payload), None)
        else if payload.role == Some("captain") then Proceed(None, Some(payload))
        else Proceed(None, None)
      case _ => Proceed(None, None)
  }

  /** The token `authenticateUser` reads: the second header field, but only
      when the header starts with "Bearer ". */
  function BearerToken(authorization: Option<string>): (t: Option<string>)
    ensures authorization.None? || !StartsWith(authorization.value, "Bearer ") ==> t.None?
    ensures authorization.Some? && StartsWith(authorization.value, "Bearer ") ==>
      t == Some(BeforeFirst(authorization.value[7..], ' '))
  {
    match authorization
    case None => None
    case Some(h) =>
      if StartsWith(h, "Bearer ") then
        assert BeforeFirst(h, ' ') == "Bearer" by {
          assert h[6] == ' ';
          assert ' ' !in h[..6];
        }
        HeaderToken(authorization)
      else None
  }

  /** `authenticateUser`: a "Bearer " header carrying a well-shaped token that
      verifies; the payload becomes the user. Anything else answers 401. */
  function AuthenticateUser(authorization: Option<string>, verify: string -> Verification): (r: Outcome)
    ensures !IsValidToken(BearerToken(authorization)) ==>
      r == Reject(401, "No authentication token, access denied")
    ensures authorization.None? || !StartsWith(authorization.value, "Bearer ") ==>
      r == Reject(401, "No authentication token, access denied")
    ensures r.Proceed? <==>
      IsValidToken(BearerToken(authorization)) && verify(BearerToken(authorization).value).Verified?
    ensures r.Proceed? ==>
      r.user == Some(verify(BearerToken(authorization).value).payload) && r.captain.None?
    ensures r.Reject? ==> r.status == 401
    ensures IsValidToken(BearerToken(authorization)) && !verify(BearerToken(authorization).value).Verified? ==>
      r == Reject(401, "Token is not valid")
  {
    var token := BearerToken(authorization);
    if !Truthy(token) || !IsValidToken(token) then Reject(401, "No authentication token, access denied")
    else
      match verify(token.value)
      case Verified(payload) => Proceed(Some(payload), None)
      case _ => Reject(401, "Token is not valid")
  }
}

=== FILE: common.dfy ===
/** Shared vocabulary: optional values, success-or-error results, JavaScript
    number values as the backend sees them, and Math.ceil on exact reals. */
module Common {

  /** A value that may be absent (`undefined` or `null` on the JavaScript side). */
  datatype Option<+T> = None | Some(value: T)

  /** The outcome of an operation that may throw; `Err` carries the error message. */
  datatype Result<+T, +E> = Ok(value: T) | Err(error: E)

  /** A JavaScript number: a finite value, NaN, or one of the two infinities.
      Finite values are modelled as exact reals. */
  datatype Num = Finite(r: real) | NaN | Infinity(negative: bool)

  /** A JavaScript value as far as the backend inspects it: a number, or
      something whose `typeof` is not 'number' (undefined, a string, null, ...). */
  datatype JsValue = Number(n: Num) | NotANumberType

  /** JavaScript truthiness of an optional string: present and non-empty. */
  predicate Truthy(s: Option<string>)
  {
    s.Some? && s.value != ""
  }

  /** Math.ceil on an exact real: the least integer not below x. */
  function Ceil(x: real): (n: int)
    ensures x <= n as real < x + 1.0
  {
    var f := x.Floor;
    if f as real == x then f else f + 1
  }

  /** Ceil is the unique integer in [x, x + 1). */
  lemma CeilUnique(x: real, n: int)
    requires x <= n as real < x + 1.0
    ensures Ceil(x) == n
  {
  }

  /** Ceil never decreases when its argument grows. */
  lemma CeilMonotone(x: real, y: real)
    requires x <= y
    ensures Ceil(x) <= Ceil(y)
  {
  }

  function Max(a: int, b: int): (m: int)
    ensures m >= a && m >= b
    ensures m == a || m == b
  {
    if a >= b then a else b
  }
}

=== FILE: fare.dfy ===
/** Fare pricing and ride construction (Backend/services/ride.service.js).
    The trip estimate comes from the map service and is a parameter here. */
module Fare {
  import opened Common
  import opened Maps
  import opened RideModel

  /** `BASE_FARE`, `PER_KM_RATE` and `MIN_FARE`, per vehicle type. */
  function BaseFare(v: VehicleType): int
  {
    match v
    case Solo => 30
    case Share => 20
  }

  function PerKmRate(v: VehicleType): int
  {
    match v
    case Solo => 15
    case Share => 10
  }

  function MinFare(v: VehicleType): int
  {
    match v
    case Solo => 30
    case Share => 20
  }

  /** The unit heuristic of `calculateFare`: a distance of 1000 or more is
      taken to be in metres and divided by 1000. */
  function DistanceInKm(distance: real): (km: real)
    ensures distance < 1000.0 ==> km == distance
    ensures distance >= 1000.0 ==> km * 1000.0 == distance
  {
    if distance >= 1000.0 then distance / 1000.0 else distance
  }

  /** `calculateFare`: only "solo" and "share" are priced; the fare is the
      base plus the per-km rate times the distance in km, rounded up to a
      whole rupee. */
  function CalculateFare(distance: real, rideType: string): (r: Result<int, string>)
    ensures r.Err? <==> rideType != "solo" && rideType != "share"
    ensures r.Err? ==> r.error == "Invalid ride type"
    ensures r.Ok? ==>
      var v := ParseVehicleType(rideType).value;
      var exact := BaseFare(v) as real + DistanceInKm(distance) * PerKmRate(v) as real;
      exact <= r.value as real < exact + 1.0
  {
    match ParseVehicleType(rideType)
    case None => Err("Invalid ride type")
    case Some(v) =>
      Ok(Ceil(BaseFare(v) as real + DistanceInKm(distance) * PerKmRate(v) as real))
  }

  /** The worked fares: 0 km costs the base fare, 10 km costs 180 solo and
      120 share, and 12.3 km costs 215 solo and 143 share. */
  lemma FareExamples()
    ensures CalculateFare(0.0, "solo") == Ok(30) && CalculateFare(0.0, "share") == Ok(20)
    ensures CalculateFare(10.0, "solo") == Ok(180) && CalculateFare(10.0, "share") == Ok(120)
    ensures CalculateFare(12.3, "solo") == Ok(215) && CalculateFare(12.3, "share") == Ok(143)
  {
    CeilUnique(30.0, 30);
    CeilUnique(20.0, 20);
    CeilUnique(180.0, 180);
    CeilUnique(120.0, 120);
    CeilUnique(214.5, 215);
    CeilUnique(143.0, 143);
  }

  /** Below 1000 the fare never decreases as the distance grows. */
  lemma FareMonotoneBelowThousand(d1: real, d2: real, rideType: string)
    requires d1 <= d2 < 1000.0
    requires rideType == "solo" || rideType == "share"
    ensures CalculateFare(d1, rideType).value <= CalculateFare(d2, rideType).value
  {
    var v := ParseVehicleType(rideType).value;
    CeilMonotone(BaseFare(v) as real + d1 * PerKmRate(v) as real,
                 BaseFare(v) as real + d2 * PerKmRate(v) as real);
  }

  /** The metre heuristic makes the fare drop at 1000: 999 is priced as 999 km,
      1000 as 1 km, the same as a distance of 1. */
  lemma FareDropsAtThousand()
    ensures CalculateFare(999.0, "solo") == Ok(15015)
    ensures CalculateFare(1000.0, "solo") == Ok(45)
    ensures CalculateFare(1000.0, "solo") == CalculateFare(1.0, "solo")
    ensures CalculateFare(1000.0, "share") == CalculateFare(1.0, "share") == Ok(30)
  {
    CeilUnique(15015.0, 15015);
    CeilUnique(45.0, 45);
    CeilUnique(30.0, 30);
  }

  /** For a non-negative distance a shared ride never costs more than a solo one. */
  lemma ShareNotAboveSolo(distance: real)
    requires distance >= 0.0
    ensures CalculateFare(distance, "share").value <= CalculateFare(distance, "solo").value
  {
    var km := DistanceInKm(distance);
    CeilMonotone(20.0 + km * 10.0, 30.0 + km * 15.0);
  }

  /** Both fares and the trip estimate they were priced from. */
  datatype FareQuote = FareQuote(solo: int, share: int, distance: real, duration: int)

  /** `getFare`: price both classes from one trip estimate and raise each to
      its minimum fare. A failed estimate fails the quote, its message wrapped. */
  function GetFare(trip: Result<Trip, string>): (r: Result<FareQuote, string>)
    ensures r.Err? <==> trip.Err?
    ensures trip.Err? ==> r.error == "Failed to calculate fare: " + trip.error
    ensures r.Ok? ==>
      && r.value.solo >= MinFare(Solo) && r.value.share >= MinFare(Share)
      && r.value.solo == Max(CalculateFare(trip.value.distance, "solo").value, MinFare(Solo))
      && r.value.share == Max(CalculateFare(trip.value.distance, "share").value, MinFare(Share))
      && r.value.distance == trip.value.distance
      && r.value.duration == trip.value.duration
  {
    match trip
    case Err(e) => Err("Failed to calculate fare: " + e)
    case Ok(t) =>
      var soloFare := CalculateFare(t.distance, "solo").value;
      var shareFare := CalculateFare(t.distance, "share").value;
      Ok(FareQuote(Max(soloFare, MinFare(Solo)), Max(shareFare, MinFare(Share)), t.distance, t.duration))
  }

  /** For a non-negative distance the minimum never binds, and the quoted
      share fare is at most the quoted solo fare. */
  lemma {:induction false} QuoteForNonNegativeDistance(t: Trip)
    requires t.distance >= 0.0
    ensures GetFare(Ok(t)).value.solo == CalculateFare(t.distance, "solo").value
    ensures GetFare(Ok(t)).value.share == CalculateFare(t.distance, "share").value
    ensures GetFare(Ok(t)).value.share <= GetFare(Ok(t)).value.solo
  {
    var km := DistanceInKm(t.distance);
    CeilMonotone(30.0, 30.0 + km * 15.0);
    CeilMonotone(20.0, 20.0 + km * 10.0);
    CeilUnique(30.0, 30);
    CeilUnique(20.0, 20);
    ShareNotAboveSolo(t.distance);
  }

  /** From geocoding to quote: when the great-circle distance is never
      negative, a quote built from a successful estimate has a non-negative
      distance and duration, no minimum binds, and sharing is never dearer. */
  lemma QuoteFromEstimate(pickup: string, destination: string, pickupResp: GeoResponse,
                          destResp: GeoResponse, haversine: (Coord, Coord) -> real)
    requires forall a, b :: haversine(a, b) >= 0.0
    requires DistanceTime(pickup, destination, pickupResp, destResp, haversine).Ok?
    ensures var q := GetFare(DistanceTime(pickup, destination, pickupResp, destResp, haversine)).value;
      && q.distance == RoundUpTenth(haversine(AddressCoordinate(pickup, pickupResp).value,
                                              AddressCoordinate(destination, destResp).value))
      && q.duration == TravelMinutes(q.distance)
      && q.distance >= 0.0 && q.duration >= 0
      && q.solo == CalculateFare(q.distance, "solo").value
      && q.share == CalculateFare(q.distance, "share").value
      && q.share <= q.solo
  {
    var t := DistanceTime(pickup, destination, pickupResp, destResp, haversine).value;
    var raw := haversine(AddressCoordinate(pickup, pickupResp).value, AddressCoordinate(destination, destResp).value);
    RoundUpTenthUnique(raw, t.distance);
    CeilUnique(2.0 * t.distance, t.duration);
    QuoteForNonNegativeDistance(t);
  }

  /** `createRide`: on a successful quote, a pending ride of the given user,
      addresses and vehicle type, priced at the solo fare exactly when the
      type is "solo" and at the share fare for every other value, with no OTP
      and no captain. A failed quote creates nothing. `now` is the clock. */
  function CreateRide(userId: string, pickup: string, destination: string, vehicleType: string,
                      quote: Result<FareQuote, string>, now: int): (r: Result<RideRecord, string>)
    ensures r.Err? <==> quote.Err?
    ensures quote.Err? ==> r.error == "Failed to create ride: " + quote.error
    ensures r.Ok? ==>
      && r.value.userId == Some(userId)
      && r.value.pickup == Some(pickup)
      && r.value.destination == Some(destination)
      && r.value.vehicleType == Some(vehicleType)
      && r.value.status == Some("pending")
      && r.value.otp.None?
      && r.value.captain.None?
      && r.value.createdAt == Some(now)
      && (vehicleType == "solo" ==> r.value.fare == Some(quote.value.solo))
      && (vehicleType != "solo" ==> r.value.fare == Some(quote.value.share))
  {
    match quote
    case Err(e) => Err("Failed to create ride: " + e)
    case Ok(q) =>
      Ok(RideRecord(Some(userId), Some(pickup), Some(destination), Some(vehicleType),
                    Some(if vehicleType == "solo" then q.solo else q.share),
                    Some("pending"), None, Some(now), None))
  }

  /** Pricing end to end: a solo ride over a non-negative distance D costs
      exactly `calculateFare(D, "solo")`. */
  lemma SoloRideFare(userId: string, pickup: string, destination: string, t: Trip, now: int)
    requires t.distance >= 0.0
    ensures CreateRide(userId, pickup, destination, "solo", GetFare(Ok(t)), now).value.fare
         == Some(CalculateFare(t.distance, "solo").value)
  {
    QuoteForNonNegativeDistance(t);
  }

  /** The ride the service builds has no OTP, so the schema rejects it. */
  lemma CreatedRideFailsSchema(userId: string, pickup: string, destination: string,
                               vehicleType: string, quote: Result<FareQuote, string>, now: int,
                               isObjectId: string -> bool)
    requires CreateRide(userId, pickup, destination, vehicleType, quote, now).Ok?
    ensures OtpPath in Violations(CreateRide(userId, pickup, destination, vehicleType, quote, now).value, isObjectId)
    ensures Validate(CreateRide(userId, pickup, destination, vehicleType, quote, now).value, now, isObjectId).Err?
  {
  }
}

=== FILE: js_text.dfy ===
/** The JavaScript string operations the backend relies on: the `\s` and
    `String.prototype.trim` whitespace class, the `\w` word class,
    `split` and `join` on a one-character separator, and `startsWith`. */
module JsText {
  import opened Common

  /** ECMAScript WhiteSpace and LineTerminator code points: the set matched by
      `\s` in a regular expression and removed by `trim`. */
  predicate IsJsSpace(c: char)
  {
    || c == '\t' || c == '\n' || c == '\U{B}' || c == '\U{C}' || c == '\r'
    || c == ' ' || c == '\U{A0}' || c == '\U{1680}'
    || ('\U{2000}' <= c <= '\U{200A}')
    || c == '\U{2028}' || c == '\U{2029}' || c == '\U{202F}' || c == '\U{205F}'
    || c == '\U{3000}' || c == '\U{FEFF}'
  }

  /** The `\w` class of a non-Unicode regular expression: ASCII letters, digits and `_`. */
  predicate IsWordChar(c: char)
  {
    ('A' <= c <= 'Z') || ('a' <= c <= 'z') || ('0' <= c <= '9') || c == '_'
  }

  predicate AllSpace(s: string)
  {
    forall k :: 0 <= k < |s| ==> IsJsSpace(s[k])
  }

  /** Neither end of `s` is whitespace. */
  predicate NoEdgeSpace(s: string)
  {
    s == [] || (!IsJsSpace(s[0]) && !IsJsSpace(s[|s| - 1]))
  }

  /** Position of the first occurrence of `c` in `s`. */
  function IndexOf(s: string, c: char): (r: Option<nat>)
    ensures r.None? <==> c !in s
    ensures r.Some? ==> r.value < |s| && s[r.value] == c && c !in s[..r.value]
  {
    if s == [] then None
    else if s[0] == c then Some(0)
    else
      match IndexOf(s[1..], c)
      case None => None
      case Some(i) =>
        assert s[1..][..i] == s[1..i + 1];
        assert s[..i + 1] == [s[0]] + s[1..i + 1];
        Some(i + 1)
  }

  /** `parts.join(sep)`. */
  function Join(parts: seq<string>, sep: char): string
  {
    if |parts| == 0 then ""
    else if |parts| == 1 then parts[0]
    else parts[0] + [sep] + Join(parts[1..], sep)
  }

  /** `s.split(sep)` for a one-character separator: never empty, no part holds
      the separator, and joining the parts back gives `s`. */
  function Split(s: string, sep: char): (parts: seq<string>)
    ensures |parts| >= 1
    ensures forall i :: 0 <= i < |parts| ==> sep !in parts[i]
    ensures Join(parts, sep) == s
    decreases |s|
  {
    match IndexOf(s, sep)
    case None => [s]
    case Some(i) =>
      var rest := Split(s[i + 1..], sep);
      assert s == s[..i] + [sep] + s[i + 1..];
      [s[..i]] + rest
  }

  /** The first part of a split is everything before the first separator, and
      the remaining parts are the split of everything after it. */
  lemma SplitHead(s: string, sep: char)
    ensures sep !in s ==> Split(s, sep) == [s]
    ensures sep in s ==>
      var i := IndexOf(s, sep).value;
      Split(s, sep)[0] == s[..i] && Split(s, sep)[1..] == Split(s[i + 1..], sep)
  {
  }

  /** The text before the first `sep`, or all of `s` when it has none. */
  function BeforeFirst(s: string, sep: char): (p: string)
    ensures sep !in p
    ensures |p| <= |s| && p == s[..|p|]
    ensures |p| < |s| <==> sep in s
    ensures |p| < |s| ==> s[|p|] == sep
  {
    match IndexOf(s, sep)
    case None => s
    case Some(i) => s[..i]
  }

  /** The first part of a split is the text before the first separator. */
  lemma SplitFirstPart(s: string, sep: char)
    ensures Split(s, sep)[0] == BeforeFirst(s, sep)
  {
    SplitHead(s, sep);
  }

  /** The first occurrence is the position that holds `c` with no `c` before it. */
  lemma IndexOfAt(s: string, c: char, i: nat)
    requires i < |s| && s[i] == c && c !in s[..i]
    ensures IndexOf(s, c) == Some(i)
  {
    assert c in s;
  }

  /** Splitting a join gives back the parts, provided no part holds the separator. */
  lemma {:induction false} SplitJoin(parts: seq<string>, sep: char)
    requires |parts| >= 1
    requires forall i :: 0 <= i < |parts| ==> sep !in parts[i]
    ensures Split(Join(parts, sep), sep) == parts
    decreases |parts|
  {
    if |parts| == 1 {
      assert IndexOf(parts[0], sep).None?;
    } else {
      var s := Join(parts, sep);
      var tail := Join(parts[1..], sep);
      assert s == parts[0] + [sep] + tail;
      var i := |parts[0]|;
      assert s[..i] == parts[0];
      assert s[i] == sep;
      assert s[i + 1..] == tail;
      IndexOfAt(s, sep, i);
      SplitJoin(parts[1..], sep);
      assert Split(s, sep) == [parts[0]] + parts[1..];
    }
  }

  /** Number of whitespace characters at the start of `s`. */
  function LeadingSpaces(s: string): (n: nat)
    ensures n <= |s|
    ensures AllSpace(s[..n])
    ensures n < |s| ==> !IsJsSpace(s[n])
  {
    if s == [] || !IsJsSpace(s[0]) then 0
    else
      var m := LeadingSpaces(s[1..]);
      assert s[..m + 1] == [s[0]] + s[1..][..m];
      m + 1
  }

  /** Length of the whitespace run that ends just before position `j`. */
  function SpacesBefore(s: string, j: nat): (n: nat)
    requires j <= |s|
    ensures n <= j
    ensures forall k :: j - n <= k < j ==> IsJsSpace(s[k])
    ensures n < j ==> !IsJsSpace(s[j - n - 1])
  {
    if j == 0 || !IsJsSpace(s[j - 1]) then 0 else SpacesBefore(s, j - 1) + 1
  }

  /** Number of whitespace characters at the end of `s`. */
  function TrailingSpaces(s: string): (n: nat)
    ensures n <= |s|
    ensures AllSpace(s[|s| - n..])
    ensures n < |s| ==> !IsJsSpace(s[|s| - n - 1])
  {
    SpacesBefore(s, |s|)
  }

  /** `s.trim()`: `s` with its leading and trailing whitespace removed. The
      result is an infix of `s`, everything cut away is whitespace, and the
      result neither starts nor ends with whitespace. */
  function Trim(s: string): (r: string)
    ensures |r| <= |s|
    ensures NoEdgeSpace(r)
    ensures var a := LeadingSpaces(s);
      a + |r| <= |s| && r == s[a..a + |r|] && AllSpace(s[..a]) && AllSpace(s[a + |r|..])
  {
    var a := LeadingSpaces(s);
    var t := s[a..];
    var b := TrailingSpaces(t);
    var r := t[..|t| - b];
    assert r == s[a..a + |r|];
    assert t[|t| - b..] == s[a + |r|..];
    assert r != [] ==> r[0] == s[a] && r[|r| - 1] == t[|t| - b - 1];
    r
  }

  /** Trimming text that has no whitespace at either end leaves it unchanged. */
  lemma TrimNoEdge(s: string)
    requires NoEdgeSpace(s)
    ensures Trim(s) == s
  {
    if s != [] {
      assert LeadingSpaces(s) == 0;
      assert TrailingSpaces(s) == 0;
    }
  }

  /** `s.startsWith(p)`. */
  predicate StartsWith(s: string, p: string)
  {
    |p| <= |s| && s[..|p|] == p
  }
}

=== FILE: maps.dfy ===
/** The pure parts of the map service (Backend/services/maps.service.js):
    address cleaning, main-location extraction, the autocomplete suggestion
    split, distance rounding, the 30 km/h travel-time rule and the input
    guard of the captain radius query. Geocoding responses, the great-circle
    distance and the database query are parameters. */
module Maps {
  import opened Common
  import opened JsText

  // ---------------------------------------------------------------------
  // cleanAddress
  // ---------------------------------------------------------------------

  predicate IsQuote(c: char)
  {
    c == '\'' || c == '"' || c == '`'
  }

  /** Characters the second replacement keeps: `\w`, `\s`, `,` and `-`. */
  predicate IsAllowed(c: char)
  {
    IsWordChar(c) || IsJsSpace(c) || c == ',' || c == '-'
  }

  /** Characters that survive every stage other than whitespace. */
  predicate IsKept(c: char)
  {
    IsWordChar(c) || c == ',' || c == '-'
  }

  /** The characters a cleaned address may contain. */
  predicate IsCleanChar(c: char)
  {
    IsKept(c) || c == ' '
  }

  /** `s` with every non-kept character dropped: what cleaning must preserve. */
  function Kept(s: string): (r: string)
    ensures forall k :: 0 <= k < |r| ==> IsKept(r[k])
  {
    if s == [] then []
    else if IsKept(s[0]) then [s[0]] + Kept(s[1..])
    else Kept(s[1..])
  }

  lemma {:induction false} KeptAppend(a: string, b: string)
    ensures Kept(a + b) == Kept(a) + Kept(b)
    decreases |a|
  {
    if a == [] {
      assert a + b == b;
    } else {
      assert (a + b)[1..] == a[1..] + b;
      KeptAppend(a[1..], b);
    }
  }

  lemma {:induction false} KeptOfSpaces(s: string)
    requires AllSpace(s)
    ensures Kept(s) == []
    decreases |s|
  {
    if s != [] {
      KeptOfSpaces(s[1..]);
    }
  }

  /** Stage one: delete every quote character (`'`, `"`, backquote). The
      other characters keep their order and number. */
  function DropQuotes(s: string): (r: string)
    ensures |r| <= |s|
    ensures forall k :: 0 <= k < |r| ==> !IsQuote(r[k])
    ensures Kept(r) == Kept(s)
    ensures forall k :: 0 <= k < |s| && !IsQuote(s[k]) ==> s[k] in r
  {
    if s == [] then []
    else if IsQuote(s[0]) then DropQuotes(s[1..])
    else
      var rest := DropQuotes(s[1..]);
      assert forall k :: 1 <= k < |s| && !IsQuote(s[k]) ==> s[1..][k - 1] == s[k];
      [s[0]] + rest
  }

  /** Stage two: every character outside `\w`, `\s`, `,` and `-` becomes a space. */
  function ReplaceDisallowed(s: string): (r: string)
    ensures |r| == |s|
    ensures forall k :: 0 <= k < |r| ==> IsAllowed(r[k])
    ensures Kept(r) == Kept(s)
  {
    if s == [] then []
    else [if IsAllowed(s[0]) then s[0] else ' '] + ReplaceDisallowed(s[1..])
  }

  /** Length of the run of non-whitespace characters at the start of `s`. */
  function WordLength(s: string): (n: nat)
    ensures n <= |s|
    ensures forall k :: 0 <= k < n ==> !IsJsSpace(s[k])
    ensures n < |s| ==> IsJsSpace(s[n])
  {
    if s == [] || IsJsSpace(s[0]) then 0
    else
      var m := WordLength(s[1..]);
      assert forall k :: 1 <= k < m + 1 ==> s[k] == s[1..][k - 1];
      m + 1
  }

  /** The words of `s`: its maximal runs of non-whitespace characters, in
      order. Whitespace normalisation must keep exactly these. */
  function Words(s: string): seq<string>
    decreases |s|
  {
    if s == [] then []
    else if IsJsSpace(s[0]) then Words(s[1..])
    else
      var n := WordLength(s);
      [s[..n]] + Words(s[n..])
  }

  /** A non-whitespace character in front of `t` starts a new first word
      when `t` is empty or starts with whitespace, and joins `t`'s first word
      otherwise. */
  lemma WordsCons(c: char, t: string)
    requires !IsJsSpace(c)
    ensures t == [] || IsJsSpace(t[0]) ==> Words([c] + t) == [[c]] + Words(t)
    ensures t != [] && !IsJsSpace(t[0]) ==>
      Words(t) != [] && Words([c] + t) == [[c] + Words(t)[0]] + Words(t)[1..]
  {
    var s := [c] + t;
    assert s[1..] == t;
    var m := WordLength(t);
    assert WordLength(s) == m + 1;
    assert s[..m + 1] == [c] + t[..m];
    assert s[m + 1..] == t[m..];
  }

  /** Leading whitespace contributes no word. */
  lemma {:induction false} WordsDropSpaces(a: string, b: string)
    requires AllSpace(a)
    ensures Words(a + b) == Words(b)
    decreases |a|
  {
    if a == [] {
      assert a + b == b;
    } else {
      assert (a + b)[1..] == a[1..] + b;
      WordsDropSpaces(a[1..], b);
    }
  }

  /** Stage three: each maximal run of whitespace becomes one space. The
      only whitespace left is single plain spaces, kept characters are
      untouched, and the result starts with a space exactly when the input
      starts with whitespace. `CollapseSpacesWords` adds that the words and
      the trailing space are kept as well. */
  function CollapseSpaces(s: string): (r: string)
    ensures forall k :: 0 <= k < |r| && IsJsSpace(r[k]) ==> r[k] == ' '
    ensures forall k :: 0 <= k < |r| - 1 ==> !(r[k] == ' ' && r[k + 1] == ' ')
    ensures (|r| > 0 && r[0] == ' ') <==> (|s| > 0 && IsJsSpace(s[0]))
    ensures Kept(r) == Kept(s)
    decreases |s|
  {
    if s == [] then []
    else if IsJsSpace(s[0]) then
      var n := LeadingSpaces(s);
      assert s == s[..n] + s[n..];
      KeptAppend(s[..n], s[n..]);
      KeptOfSpaces(s[..n]);
      var rest := CollapseSpaces(s[n..]);
      var r := [' '] + rest;
      assert r[1..] == rest;
      assert forall k :: 1 <= k < |r| ==> r[k] == rest[k - 1];
      assert |rest| > 0 ==> rest[0] != ' ';
      r
    else
      assert s == [s[0]] + s[1..];
      KeptAppend([s[0]], s[1..]);
      var rest := CollapseSpaces(s[1..]);
      var r := [s[0]] + rest;
      assert r[1..] == rest;
      assert forall k :: 1 <= k < |r| ==> r[k] == rest[k - 1];
      r
  }

  /** One step of collapsing: a leading whitespace run becomes one space in
      front of the collapsed remainder, and any other first character stays
      in front of it. */
  lemma CollapseSpacesStep(s: string)
    requires s != []
    ensures IsJsSpace(s[0]) ==>
      LeadingSpaces(s) > 0 && CollapseSpaces(s) == [' '] + CollapseSpaces(s[LeadingSpaces(s)..])
    ensures !IsJsSpace(s[0]) ==> CollapseSpaces(s) == [s[0]] + CollapseSpaces(s[1..])
  {
  }

  /** Trailing whitespace collapses to a trailing space. */
  lemma {:induction false} CollapseSpacesTrailingSpace(s: string)
    requires s != [] && IsJsSpace(s[|s| - 1])
    ensures var r := CollapseSpaces(s); r != [] && r[|r| - 1] == ' '
    decreases |s|
  {
    CollapseSpacesStep(s);
    if IsJsSpace(s[0]) {
      var t := s[LeadingSpaces(s)..];
      if t == [] {
        assert CollapseSpaces(s) == [' '];
      } else {
        assert t[|t| - 1] == s[|s| - 1];
        CollapseSpacesTrailingSpace(t);
      }
    } else {
      var t := s[1..];
      assert t[|t| - 1] == s[|s| - 1];
      CollapseSpacesTrailingSpace(t);
    }
  }

  /** A final non-whitespace character stays last. */
  lemma {:induction false} CollapseSpacesTrailingChar(s: string)
    requires s != [] && !IsJsSpace(s[|s| - 1])
    ensures var r := CollapseSpaces(s); r != [] && r[|r| - 1] == s[|s| - 1]
    decreases |s|
  {
    CollapseSpacesStep(s);
    var n := if IsJsSpace(s[0]) then LeadingSpaces(s) else 1;
    var t := s[n..];
    if t != [] {
      assert t[|t| - 1] == s[|s| - 1];
      CollapseSpacesTrailingChar(t);
    }
  }

  /** Collapsing is empty only for the empty input, and ends with a space
      exactly when the input ends with whitespace. */
  lemma {:induction false} CollapseSpacesEnds(s: string)
    ensures |CollapseSpaces(s)| == 0 <==> |s| == 0
    ensures var r := CollapseSpaces(s);
      (|r| > 0 && r[|r| - 1] == ' ') <==> (|s| > 0 && IsJsSpace(s[|s| - 1]))
  {
    if s != [] {
      if IsJsSpace(s[|s| - 1]) {
        CollapseSpacesTrailingSpace(s);
      } else {
        CollapseSpacesTrailingChar(s);
      }
    }
  }

  /** Collapsing keeps the words of the input. With the contract of
      `CollapseSpaces` and `CollapseSpacesEnds` this fixes the result: the
      words of the input separated by single spaces, with one space in front
      or behind exactly where the input had whitespace. */
  lemma {:induction false} CollapseSpacesWords(s: string)
    ensures Words(CollapseSpaces(s)) == Words(s)
    decreases |s|
  {
    if s != [] {
      CollapseSpacesStep(s);
      var r := CollapseSpaces(s);
      if IsJsSpace(s[0]) {
        var n := LeadingSpaces(s);
        var t := s[n..];
        assert s == s[..n] + t;
        WordsDropSpaces(s[..n], t);
        CollapseSpacesWords(t);
        assert r[1..] == CollapseSpaces(t);
      } else {
        var t := s[1..];
        CollapseSpacesWords(t);
        CollapseSpacesEnds(t);
        var rest := CollapseSpaces(t);
        assert s == [s[0]] + t;
        WordsCons(s[0], rest);
        WordsCons(s[0], t);
      }
    }
  }

  /** Collapsing text made only of allowed characters leaves only clean
      characters: every whitespace that survives is a plain space. */
  lemma {:induction false} CollapseSpacesClean(s: string)
    requires forall k :: 0 <= k < |s| ==> IsAllowed(s[k])
    ensures forall k :: 0 <= k < |CollapseSpaces(s)| ==> IsCleanChar(CollapseSpaces(s)[k])
    decreases |s|
  {
    if s != [] {
      var r := CollapseSpaces(s);
      if IsJsSpace(s[0]) {
        var n := LeadingSpaces(s);
        assert forall k :: 0 <= k < |s[n..]| ==> s[n..][k] == s[n + k];
        CollapseSpacesClean(s[n..]);
        assert forall k :: 1 <= k < |r| ==> r[k] == CollapseSpaces(s[n..])[k - 1];
      } else {
        assert forall k :: 0 <= k < |s[1..]| ==> s[1..][k] == s[k + 1];
        CollapseSpacesClean(s[1..]);
        assert forall k :: 1 <= k < |r| ==> r[k] == CollapseSpaces(s[1..])[k - 1];
        assert IsKept(s[0]);
      }
    }
  }

  /** What a cleaned address looks like: only word characters, commas,
      hyphens and single spaces, with no space at either end. */
  predicate IsCleaned(s: string)
  {
    && (forall k :: 0 <= k < |s| ==> IsCleanChar(s[k]))
    && (forall k :: 0 <= k < |s| - 1 ==> !(s[k] == ' ' && s[k + 1] == ' '))
    && NoEdgeSpace(s)
  }

  /** `cleanAddress`: drop quotes, turn other special characters into spaces,
      collapse whitespace runs and trim. The result is cleaned, and the word
      characters, commas and hyphens of the input survive in order. */
  function CleanAddress(address: string): (r: string)
    ensures IsCleaned(r)
    ensures forall k :: 0 <= k < |r| ==> !IsQuote(r[k])
    ensures Kept(r) == Kept(address)
    ensures r == Join(Words(ReplaceDisallowed(DropQuotes(address))), ' ')
  {
    CleanAddressFacts(address);
    Trim(CollapseSpaces(ReplaceDisallowed(DropQuotes(address))))
  }

  /** The facts `CleanAddress` promises, about the expression it computes. */
  lemma CleanAddressFacts(address: string)
    ensures var x := ReplaceDisallowed(DropQuotes(address));
      var r := Trim(CollapseSpaces(x));
      && IsCleaned(r)
      && (forall k :: 0 <= k < |r| ==> !IsQuote(r[k]))
      && Kept(r) == Kept(address)
      && r == Join(Words(x), ' ')
  {
    var x := ReplaceDisallowed(DropQuotes(address));
    assert Kept(x) == Kept(address);
    Normalise(x);
    CleanedHasNoQuote(Trim(CollapseSpaces(x)));
  }

  /** A cleaned address holds no quote character. */
  lemma CleanedHasNoQuote(r: string)
    requires IsCleaned(r)
    ensures forall k :: 0 <= k < |r| ==> !IsQuote(r[k])
  {
    forall k | 0 <= k < |r|
      ensures !IsQuote(r[k])
    {
      assert IsCleanChar(r[k]);
    }
  }

  /** Collapsing and trimming text of allowed characters gives a cleaned
      address with the same kept characters: its words separated by single
      spaces. */
  lemma Normalise(x: string)
    requires forall k :: 0 <= k < |x| ==> IsAllowed(x[k])
    ensures var r := Trim(CollapseSpaces(x));
      IsCleaned(r) && Kept(r) == Kept(x) && r == Join(Words(x), ' ')
  {
    var collapsed := CollapseSpaces(x);
    CollapseSpacesClean(x);
    CollapseSpacesWords(x);
    TrimKept(collapsed);
    TrimKeepsClean(collapsed);
    TrimWords(collapsed);
    CleanedIsJoin(Trim(collapsed));
  }

  /** Trimming removes only whitespace, so it keeps every kept character. */
  lemma TrimKept(s: string)
    ensures Kept(Trim(s)) == Kept(s)
  {
    var r := Trim(s);
    var a := LeadingSpaces(s);
    assert s == s[..a] + (r + s[a + |r|..]);
    KeptAppend(s[..a], r + s[a + |r|..]);
    KeptAppend(r, s[a + |r|..]);
    KeptOfSpaces(s[..a]);
    KeptOfSpaces(s[a + |r|..]);
  }

  /** Trimming a string of clean characters without double spaces gives a
      cleaned address. */
  lemma TrimKeepsClean(s: string)
    requires forall k :: 0 <= k < |s| ==> IsCleanChar(s[k])
    requires forall k :: 0 <= k < |s| - 1 ==> !(s[k] == ' ' && s[k + 1] == ' ')
    ensures IsCleaned(Trim(s))
  {
    var r := Trim(s);
    var a := LeadingSpaces(s);
    assert forall k :: 0 <= k < |r| ==> r[k] == s[a + k];
  }

  lemma {:induction false} WordLengthAppendSpaces(m: string, sp: string)
    requires AllSpace(sp)
    ensures WordLength(m + sp) == WordLength(m)
    decreases |m|
  {
    if m != [] && !IsJsSpace(m[0]) {
      assert (m + sp)[1..] == m[1..] + sp;
      WordLengthAppendSpaces(m[1..], sp);
    }
  }

  /** Trailing whitespace contributes no word. */
  lemma {:induction false} WordsAppendSpaces(m: string, sp: string)
    requires AllSpace(sp)
    ensures Words(m + sp) == Words(m)
    decreases |m|
  {
    if m == [] {
      assert m + sp == sp + [];
      WordsDropSpaces(sp, []);
    } else if IsJsSpace(m[0]) {
      assert (m + sp)[1..] == m[1..] + sp;
      WordsAppendSpaces(m[1..], sp);
    } else {
      var n := WordLength(m);
      WordLengthAppendSpaces(m, sp);
      assert (m + sp)[..n] == m[..n];
      assert (m + sp)[n..] == m[n..] + sp;
      WordsAppendSpaces(m[n..], sp);
    }
  }

  /** Trimming keeps the words. */
  lemma TrimWords(s: string)
    ensures Words(Trim(s)) == Words(s)
  {
    var r := Trim(s);
    var a := LeadingSpaces(s);
    var tail := s[a + |r|..];
    assert s == s[..a] + (r + tail);
    WordsDropSpaces(s[..a], r + tail);
    WordsAppendSpaces(r, tail);
  }

  /** The only whitespace among the clean characters is the plain space. */
  lemma CleanCharSpace(c: char)
    requires IsCleanChar(c)
    ensures IsJsSpace(c) <==> c == ' '
  {
  }

  /** In a cleaned address, what follows an interior space is again a
      cleaned address, and it starts with a non-whitespace character. */
  lemma CleanedAfterSpace(t: string, n: nat)
    requires IsCleaned(t) && n < |t| && t[n] == ' '
    ensures n + 1 < |t| && IsCleaned(t[n + 1..]) && !IsJsSpace(t[n + 1])
  {
    var u := t[n + 1..];
    assert forall k :: 0 <= k < |u| ==> u[k] == t[n + 1 + k];
    CleanCharSpace(t[n + 1]);
  }

  /** In a cleaned address, the first word is followed by one space and a
      cleaned remainder that starts a new word. */
  lemma CleanedGap(t: string)
    requires IsCleaned(t) && t != [] && WordLength(t) < |t|
    ensures var n := WordLength(t);
      n + 1 < |t| && t[n] == ' ' && IsCleaned(t[n + 1..]) && !IsJsSpace(t[n + 1])
  {
    var n := WordLength(t);
    CleanCharSpace(t[n]);
    CleanedAfterSpace(t, n);
  }

  /** A word followed by one whitespace character: the word comes first,
      then the words after that character. */
  lemma WordsAtSpace(t: string)
    requires t != [] && !IsJsSpace(t[0]) && WordLength(t) < |t|
    ensures Words(t) == [t[..WordLength(t)]] + Words(t[WordLength(t) + 1..])
  {
    var n := WordLength(t);
    assert t[n..][1..] == t[n + 1..];
  }

  /** A string that starts with a non-whitespace character has a word. */
  lemma WordsNonEmpty(u: string)
    requires u != [] && !IsJsSpace(u[0])
    ensures Words(u) != []
  {
  }

  lemma SplitAround(t: string, n: nat)
    requires n < |t|
    ensures t == t[..n] + [t[n]] + t[n + 1..]
  {
  }

  lemma JoinCons(w: string, ws: seq<string>, sep: char)
    requires ws != []
    ensures Join([w] + ws, sep) == w + [sep] + Join(ws, sep)
  {
    assert ([w] + ws)[1..] == ws;
  }

  /** A cleaned address is its words separated by single spaces. */
  lemma {:induction false} CleanedIsJoin(t: string)
    requires IsCleaned(t)
    ensures Join(Words(t), ' ') == t
    decreases |t|
  {
    if t != [] {
      var n := WordLength(t);
      if n == |t| {
        assert t[..n] == t;
        assert t[n..] == [];
      } else {
        CleanedGap(t);
        WordsAtSpace(t);
        var u := t[n + 1..];
        WordsNonEmpty(u);
        SplitAround(t, n);
        CleanedIsJoin(u);
        JoinCons(t[..n], Words(u), ' ');
      }
    }
  }

  /** Each stage leaves a cleaned address unchanged. */
  lemma {:induction false} DropQuotesFixes(s: string)
    requires forall k :: 0 <= k < |s| ==> !IsQuote(s[k])
    ensures DropQuotes(s) == s
    decreases |s|
  {
    if s != [] {
      DropQuotesFixes(s[1..]);
    }
  }

  lemma {:induction false} ReplaceDisallowedFixes(s: string)
    requires forall k :: 0 <= k < |s| ==> IsAllowed(s[k])
    ensures ReplaceDisallowed(s) == s
    decreases |s|
  {
    if s != [] {
      ReplaceDisallowedFixes(s[1..]);
    }
  }

  lemma {:induction false} CollapseSpacesFixes(s: string)
    requires forall k :: 0 <= k < |s| ==> IsCleanChar(s[k])
    requires forall k :: 0 <= k < |s| - 1 ==> !(s[k] == ' ' && s[k + 1] == ' ')
    ensures CollapseSpaces(s) == s
    decreases |s|
  {
    if s != [] {
      if IsJsSpace(s[0]) {
        assert |s| > 1 ==> !IsJsSpace(s[1]);
        assert LeadingSpaces(s) == 1;
      }
      CollapseSpacesFixes(s[1..]);
    }
  }

  /** Cleaning is idempotent: a cleaned address is its own cleaning. */
  lemma CleanAddressIdempotent(address: string)
    ensures CleanAddress(CleanAddress(address)) == CleanAddress(address)
  {
    var r := CleanAddress(address);
    DropQuotesFixes(r);
    ReplaceDisallowedFixes(r);
    CollapseSpacesFixes(r);
    TrimNoEdge(r);
  }

  lemma {:induction false} DropQuotesAppend(a: string, b: string)
    ensures DropQuotes(a + b) == DropQuotes(a) + DropQuotes(b)
    decreases |a|
  {
    if a == [] {
      assert a + b == b;
    } else {
      assert (a + b)[1..] == a[1..] + b;
      DropQuotesAppend(a[1..], b);
    }
  }

  lemma {:induction false} ReplaceDisallowedAppend(a: string, b: string)
    ensures ReplaceDisallowed(a + b) == ReplaceDisallowed(a) + ReplaceDisallowed(b)
    decreases |a|
  {
    if a == [] {
      assert a + b == b;
    } else {
      assert (a + b)[1..] == a[1..] + b;
      ReplaceDisallowedAppend(a[1..], b);
    }
  }

  /** The stages of cleaning, in order. */
  lemma CleanAddressStages(s: string)
    ensures CleanAddress(s) == Trim(CollapseSpaces(ReplaceDisallowed(DropQuotes(s))))
  {
  }

  /** A quote anywhere in an address is deleted outright: the address cleans
      exactly as if the quote were not there. */
  lemma CleanAddressDeletesQuotes(a: string, q: char, b: string)
    requires IsQuote(q)
    ensures CleanAddress(a + [q] + b) == CleanAddress(a + b)
  {
    var qb := [q] + b;
    assert qb[1..] == b;
    assert DropQuotes(qb) == DropQuotes(b);
    assert a + [q] + b == a + qb;
    DropQuotesAppend(a, qb);
    DropQuotesAppend(a, b);
    CleanAddressStages(a + [q] + b);
    CleanAddressStages(a + b);
  }

  lemma DropQuotesKeeps(a: string, c: char, b: string)
    requires !IsQuote(c)
    ensures DropQuotes(a + [c] + b) == DropQuotes(a) + [c] + DropQuotes(b)
  {
    var cb := [c] + b;
    assert cb[1..] == b;
    assert DropQuotes(cb) == [c] + DropQuotes(b);
    assert a + [c] + b == a + cb;
    DropQuotesAppend(a, cb);
  }

  lemma ReplaceDisallowedBlanks(a: string, c: char, b: string)
    requires !IsAllowed(c)
    ensures ReplaceDisallowed(a + [c] + b) == ReplaceDisallowed(a + [' '] + b)
  {
    var cb := [c] + b;
    var sb := [' '] + b;
    assert cb[1..] == b && sb[1..] == b;
    assert ReplaceDisallowed(cb) == [' '] + ReplaceDisallowed(b) == ReplaceDisallowed(sb);
    assert a + [c] + b == a + cb;
    assert a + [' '] + b == a + sb;
    ReplaceDisallowedAppend(a, cb);
    ReplaceDisallowedAppend(a, sb);
  }

  /** Any other character outside `\w`, `\s`, `,` and `-` is replaced: the
      address cleans exactly as if a space stood there. */
  lemma CleanAddressBlanksSpecials(a: string, c: char, b: string)
    requires !IsQuote(c) && !IsAllowed(c)
    ensures CleanAddress(a + [c] + b) == CleanAddress(a + " " + b)
  {
    DropQuotesKeeps(a, c, b);
    DropQuotesKeeps(a, ' ', b);
    ReplaceDisallowedBlanks(DropQuotes(a), c, DropQuotes(b));
    CleanAddressStages(a + [c] + b);
    CleanAddressStages(a + " " + b);
  }

  // ---------------------------------------------------------------------
  // getMainLocation and the autocomplete suggestion split
  // ---------------------------------------------------------------------

  /** `getMainLocation`: the trimmed first comma-separated part, followed by
      ", India". */
  function MainLocation(address: string): (r: string)
    ensures |r| >= 7 && r[|r| - 7..] == ", India"
    ensures r[..|r| - 7] == Trim(BeforeFirst(address, ','))
    ensures ',' !in r[..|r| - 7]
  {
    SplitFirstPart(address, ',');
    TrimKeepsOut(BeforeFirst(address, ','), ',');
    var head := Trim(Split(address, ',')[0]);
    var r := head + ", India";
    assert r[..|r| - 7] == head;
    r
  }

  /** Trimming cannot introduce a character. */
  lemma TrimKeepsOut(s: string, c: char)
    requires c !in s
    ensures c !in Trim(s)
  {
    var r := Trim(s);
    var a := LeadingSpaces(s);
    assert forall k :: 0 <= k < |r| ==> r[k] == s[a + k];
  }

  /** A geocoder search hit as returned by the autocomplete endpoint;
      `displayName` may be missing. */
  datatype Place = Place(placeId: string, displayName: Option<string>)

  datatype Suggestion = Suggestion(
    placeId: string, description: string, mainText: string, secondaryText: string)

  /** The suggestion built from one hit: `mainText` is the text before the
      first comma; `secondaryText` is the trimmed rest after that comma, or
      empty when there is no comma. */
  function ToSuggestion(placeId: string, displayName: string): (sg: Suggestion)
    ensures sg.placeId == placeId && sg.description == displayName
    ensures ',' !in sg.mainText
    ensures ',' !in displayName ==> sg.mainText == displayName && sg.secondaryText == ""
    ensures ',' in displayName ==>
      && |sg.mainText| < |displayName|
      && displayName == sg.mainText + "," + displayName[|sg.mainText| + 1..]
      && sg.secondaryText == Trim(displayName[|sg.mainText| + 1..])
  {
    var parts := Split(displayName, ',');
    SplitHead(displayName, ',');
    var main := parts[0];
    var secondary := Trim(Join(parts[1..], ','));
    assert ',' in displayName ==> displayName == main + "," + displayName[|main| + 1..];
    Suggestion(placeId, displayName, main, secondary)
  }

  /** What the autocomplete request produced. */
  datatype Fetch = FetchFailed(message: string) | NoData | Places(places: seq<Place>)

  /** `getAutoCompleteSuggestions`: one suggestion per hit, in order; a failed
      request, a missing body or a hit without a display name (the split
      throws, and the error is swallowed) all give the empty list. */
  function AutoCompleteSuggestions(fetch: Fetch): (r: seq<Suggestion>)
    ensures !fetch.Places? ==> r == []
    ensures fetch.Places? && (exists i :: 0 <= i < |fetch.places| && fetch.places[i].displayName.None?)
            ==> r == []
    ensures fetch.Places? && (forall i :: 0 <= i < |fetch.places| ==> fetch.places[i].displayName.Some?)
            ==> |r| == |fetch.places|
                && forall i :: 0 <= i < |r| ==>
                     r[i] == ToSuggestion(fetch.places[i].placeId, fetch.places[i].displayName.value)
  {
    match fetch
    case FetchFailed(_) => []
    case NoData => []
    case Places(ps) =>
      if forall i :: 0 <= i < |ps| ==> ps[i].displayName.Some? then
        seq(|ps|, i requires 0 <= i < |ps| => ToSuggestion(ps[i].placeId, ps[i].displayName.value))
      else []
  }

  // ---------------------------------------------------------------------
  // Coordinates, distance and duration
  // ---------------------------------------------------------------------

  datatype Coord = Coord(lat: real, lon: real)

  /** What the geocoder answered for one address: a transport failure, or
      the list of hits (possibly empty). */
  datatype GeoResponse = GeoFailed(message: string) | GeoResults(results: seq<Coord>)

  /** `getAddressCoordinate`: the first hit, or an error naming the address. */
  function AddressCoordinate(address: string, resp: GeoResponse): (r: Result<Coord, string>)
    ensures resp.GeoResults? && |resp.results| > 0 <==> r.Ok?
    ensures r.Ok? ==> r.value == resp.results[0]
    ensures resp.GeoResults? && resp.results == [] ==>
      r == Err("Failed to get coordinates: No coordinates found for address: " + address)
    ensures resp.GeoFailed? ==> r == Err("Failed to get coordinates: " + resp.message)
  {
    match resp
    case GeoFailed(m) => Err("Failed to get coordinates: " + m)
    case GeoResults(hits) =>
      if hits == [] then Err("Failed to get coordinates: No coordinates found for address: " + address)
      else Ok(hits[0])
  }

  /** The distance rounding `Math.ceil(d * 10) / 10`: the least multiple of
      0.1 that is not below the raw distance. */
  function RoundUpTenth(raw: real): (d: real)
    ensures raw <= d < raw + 0.1
    ensures (d * 10.0).Floor as real == d * 10.0
  {
    var n := Ceil(raw * 10.0);
    var d := n as real / 10.0;
    assert d * 10.0 == n as real;
    d
  }

  /** The two clauses of RoundUpTenth pin it: the only multiple of 0.1 in
      `[raw, raw + 0.1)` is the rounded distance. */
  lemma RoundUpTenthUnique(raw: real, d: real)
    requires raw <= d < raw + 0.1
    requires (d * 10.0).Floor as real == d * 10.0
    ensures d == RoundUpTenth(raw)
  {
    var k := (d * 10.0).Floor;
    CeilUnique(raw * 10.0, k);
  }

  /** Minutes at an assumed 30 km/h, rounded up: `Math.ceil(d / 30 * 60)`. */
  function TravelMinutes(distanceKm: real): (m: int)
    ensures 2.0 * distanceKm <= m as real < 2.0 * distanceKm + 1.0
  {
    Ceil((distanceKm / 30.0) * 60.0)
  }

  /** A trip estimate: kilometres and minutes. */
  datatype Trip = Trip(distance: real, duration: int)

  /** `getDistanceTime`: geocode the pickup, then the destination, then round
      the great-circle distance between them and derive the duration. Any
      geocoding failure fails the estimate, with the message wrapped. The
      great-circle distance itself is the parameter `haversine`. */
  function DistanceTime(pickup: string, destination: string,
                        pickupResp: GeoResponse, destResp: GeoResponse,
                        haversine: (Coord, Coord) -> real): (r: Result<Trip, string>)
    ensures r.Ok? <==> AddressCoordinate(pickup, pickupResp).Ok? && AddressCoordinate(destination, destResp).Ok?
    ensures AddressCoordinate(pickup, pickupResp).Err? ==>
      r == Err("Failed to calculate distance and time: " + AddressCoordinate(pickup, pickupResp).error)
    ensures AddressCoordinate(pickup, pickupResp).Ok? && AddressCoordinate(destination, destResp).Err? ==>
      r == Err("Failed to calculate distance and time: " + AddressCoordinate(destination, destResp).error)
    ensures r.Ok? ==>
      var raw := haversine(AddressCoordinate(pickup, pickupResp).value,
                           AddressCoordinate(destination, destResp).value);
      && raw <= r.value.distance < raw + 0.1
      && (r.value.distance * 10.0).Floor as real == r.value.distance * 10.0
      && 2.0 * r.value.distance <= r.value.duration as real < 2.0 * r.value.distance + 1.0
  {
    match AddressCoordinate(pickup, pickupResp)
    case Err(e) => Err("Failed to calculate distance and time: " + e)
    case Ok(from) =>
      match AddressCoordinate(destination, destResp)
      case Err(e) => Err("Failed to calculate distance and time: " + e)
      case Ok(to) =>
        var distance := RoundUpTenth(haversine(from, to));
        Ok(Trip(distance, TravelMinutes(distance)))
  }

  /** The example trip: a raw distance of exactly 12.3 km is kept and takes
      25 minutes. */
  lemma RoundingExample()
    ensures RoundUpTenth(12.3) == 12.3
    ensures RoundUpTenth(12.31) == 12.4
    ensures TravelMinutes(12.3) == 25
  {
    CeilUnique(123.0, 123);
    CeilUnique(123.1, 124);
    CeilUnique(24.6, 25);
  }

  // ---------------------------------------------------------------------
  // getCaptainsInTheRadius
  // ---------------------------------------------------------------------

  /** The guard's test: `typeof v === 'number' && !isNaN(v)`. Infinities pass. */
  predicate IsUsableCoordinate(v: JsValue)
  {
    v.Number? && !v.n.NaN?
  }

  /** `getCaptainsInTheRadius`: with a usable latitude and longitude, the
      captains the spherical-cap query returned; otherwise, or when the query
      fails, the empty list. It never fails. */
  function CaptainsInRadius<T>(lat: JsValue, lon: JsValue, radiusKm: real,
                               query: Result<seq<T>, string>): (r: seq<T>)
    ensures !(IsUsableCoordinate(lat) && IsUsableCoordinate(lon)) ==> r == []
    ensures query.Err? ==> r == []
    ensures IsUsableCoordinate(lat) && IsUsableCoordinate(lon) && query.Ok? ==> r == query.value
  {
    if !(IsUsableCoordinate(lat) && IsUsableCoordinate(lon)) then []
    else
      match query
      case Err(_) => []
      case Ok(captains) => captains
  }
}

=== FILE: ride_controller.dfy ===
/** The ride request handlers (Backend/controllers/ride.controller.js) as
    pure functions from what the handler is given (the authenticated
    principal, the request fields, the outcomes of the service and database
    calls) to the HTTP answer and the socket messages sent. */
module RideController {
  import opened Common
  import opened RideModel
  import opened Maps
  import opened Fare
  import opened Auth
  import opened Sockets

  /** A captain document as the radius query returns it. */
  datatype CaptainDoc = CaptainDoc(id: string, socketId: Option<string>)

  /** The user a lifecycle result is populated with. */
  datatype UserRef = UserRef(id: string, socketId: Option<string>)

  /** What the lifecycle service returns: the ride and its populated user. */
  datatype RideView = RideView(ride: RideRecord, user: Option<UserRef>)

  /** The data of the events the controller pushes. */
  datatype Payload = NewRideData(ride: Option<RideRecord>) | LifecycleData(view: RideView)

  datatype Body = RideBody(ride: RideRecord)
                | ViewBody(view: RideView)
                | RideListBody(rides: seq<Ride>)
                | ActiveRideBody(active: Ride)
                | MessageBody(message: string)
                | ValidationErrorsBody

  datatype Response = Response(status: int, body: Body)

  /** The answer and the socket messages of one request. */
  datatype Handled = Handled(response: Response, out: seq<Outgoing<Payload>>)

  // ---------------------------------------------------------------------
  // new-ride fan-out
  // ---------------------------------------------------------------------

  /** Number of messages sent on behalf of account `id`. */
  function MessagesTo<P>(out: seq<Outgoing<P>>, id: string): nat
  {
    if out == [] then 0
    else (if out[0].Send? && out[0].recipient == id then 1 else 0) + MessagesTo(out[1..], id)
  }

  /** Number of entries of `captains` for account `id` that carry a socket id. */
  function ReachableEntries(captains: seq<CaptainDoc>, id: string): nat
  {
    if captains == [] then 0
    else (if captains[0].id == id && Truthy(captains[0].socketId) then 1 else 0)
         + ReachableEntries(captains[1..], id)
  }

  /** The `forEach` of `createRide`: every captain of the query result with a
      socket id gets one `new-ride` with the ride, on that socket; no one
      else gets anything. */
  function NewRideFanout(captains: seq<CaptainDoc>, ride: Option<RideRecord>): (out: seq<Outgoing<Payload>>)
    ensures forall i :: 0 <= i < |out| ==>
      && out[i].Send? && out[i].event == "new-ride" && out[i].data == NewRideData(ride)
      && exists j :: 0 <= j < |captains| && captains[j].id == out[i].recipient
                                         && captains[j].socketId == Some(out[i].socketId)
                                         && out[i].socketId != ""
    ensures forall id :: MessagesTo(out, id) == ReachableEntries(captains, id)
  {
    if captains == [] then []
    else
      var rest := NewRideFanout(captains[1..], ride);
      var c := captains[0];
      if Truthy(c.socketId) then
        var out := [Send(c.id, c.socketId.value, "new-ride", NewRideData(ride))] + rest;
        assert out[1..] == rest;
        assert forall i :: 1 <= i < |out| ==> out[i] == rest[i - 1];
        out
      else rest
  }

  /** When the query returns each captain once, each captain with a socket id
      gets exactly one `new-ride`, and every other account none. */
  lemma {:induction false} FanoutExactlyOnce(captains: seq<CaptainDoc>, ride: Option<RideRecord>, id: string)
    requires forall i, j :: 0 <= i < j < |captains| ==> captains[i].id != captains[j].id
    ensures MessagesTo(NewRideFanout(captains, ride), id)
         == (if exists j :: 0 <= j < |captains| && captains[j].id == id && Truthy(captains[j].socketId)
             then 1 else 0)
    decreases |captains|
  {
    if captains != [] {
      FanoutExactlyOnce(captains[1..], ride, id);
      if captains[0].id == id {
        NoOtherEntries(captains[1..], id);
      }
      assert forall j :: 1 <= j < |captains| ==> captains[j] == captains[1..][j - 1];
    }
  }

  lemma {:induction false} NoOtherEntries(captains: seq<CaptainDoc>, id: string)
    requires forall j :: 0 <= j < |captains| ==> captains[j].id != id
    ensures ReachableEntries(captains, id) == 0
    decreases |captains|
  {
    if captains != [] {
      NoOtherEntries(captains[1..], id);
    }
  }

  // ---------------------------------------------------------------------
  // createRide
  // ---------------------------------------------------------------------

  /** What the notification phase of `createRide` gets back from the outside
      world: the geocoding of the pickup, the answer of the 2 km captain
      query, and the populated ride lookup. */
  datatype NotifyEnv = NotifyEnv(
    pickupGeo: GeoResponse,
    captainQuery: Result<seq<CaptainDoc>, string>,
    populated: Result<Option<RideRecord>, string>)

  /** The notification phase as written: it passes `pickupCoordinates.ltd`
      and `.lng` to the radius query, but the coordinate object has only
      `lat` and `lon`, so both arguments are undefined, the query's guard
      answers the empty list, and no captain is ever notified. */
  function NotifyCaptainsAsWritten(pickup: string, env: NotifyEnv): (out: seq<Outgoing<Payload>>)
    ensures out == []
  {
    match AddressCoordinate(pickup, env.pickupGeo)
    case Err(_) => []
    case Ok(_) =>
      var captains := CaptainsInRadius(NotANumberType, NotANumberType, 2.0, env.captainQuery);
      match env.populated
      case Err(_) => []
      case Ok(ride) => NewRideFanout(captains, ride)
  }

  /** The notification phase with the coordinates read from the fields the
      geocoder sets: the 2 km query result is fanned out. Any failure along
      the way (geocoding, query, lookup) is swallowed and sends nothing. */
  function NotifyCaptains(pickup: string, env: NotifyEnv): (out: seq<Outgoing<Payload>>)
    ensures AddressCoordinate(pickup, env.pickupGeo).Ok? && env.captainQuery.Ok? && env.populated.Ok? ==>
      out == NewRideFanout(env.captainQuery.value, env.populated.value)
    ensures AddressCoordinate(pickup, env.pickupGeo).Err? || env.captainQuery.Err? || env.populated.Err? ==>
      out == []
  {
    match AddressCoordinate(pickup, env.pickupGeo)
    case Err(_) => []
    case Ok(coords) =>
      var captains := CaptainsInRadius(Number(Finite(coords.lat)), Number(Finite(coords.lon)), 2.0,
                                       env.captainQuery);
      match env.populated
      case Err(_) => []
      case Ok(ride) => NewRideFanout(captains, ride)
  }

  /** The discrepancy: with the pickup found and one online captain within
      2 km, the corrected phase notifies that captain and the written one
      does not. */
  lemma AsWrittenMissesNearbyCaptain()
    ensures var env := NotifyEnv(GeoResults([Coord(12.9, 77.6)]),
                                 Ok([CaptainDoc("c1", Some("sock-1"))]), Ok(None));
      && NotifyCaptainsAsWritten("MG Road", env) == []
      && NotifyCaptains("MG Road", env) == [Send("c1", "sock-1", "new-ride", NewRideData(None))]
  {
  }

  datatype CreateRideBody = CreateRideBody(pickup: string, destination: string, vehicleType: string)

  /** The response and messages of `createRide`, given what its notification
      phase sends: reject invalid input (400) and requests without an
      authenticated user id (401) before creating anything; a failed creation
      answers 500 with its message; otherwise answer 201 with the ride and
      send the notifications on the side. `quote` is the fare quote the
      service obtains for the two addresses, `now` the clock. */
  function CreateRideWith(validationOk: bool, user: Option<Identity>, body: CreateRideBody,
                          quote: Result<FareQuote, string>, now: int, notify: seq<Outgoing<Payload>>): Handled
  {
    if !validationOk then Handled(Response(400, ValidationErrorsBody), [])
    else if user.None? || !Truthy(user.value.id) then
      Handled(Response(401, MessageBody("User authentication required")), [])
    else
      match CreateRide(user.value.id.value, body.pickup, body.destination, body.vehicleType, quote, now)
      case Err(e) => Handled(Response(500, MessageBody(if e == "" then "Failed to create ride" else e)), [])
      case Ok(ride) => Handled(Response(201, RideBody(ride)), notify)
  }

  /** `createRide` as written: its notification phase reads `.ltd`/`.lng`,
      so although the ride is created and answered with 201, no captain is
      ever notified. */
  function CreateRideHandler(validationOk: bool, user: Option<Identity>, body: CreateRideBody,
                             quote: Result<FareQuote, string>, now: int, env: NotifyEnv): (h: Handled)
    ensures !validationOk ==> h == Handled(Response(400, ValidationErrorsBody), [])
    ensures validationOk && (user.None? || !Truthy(user.value.id)) ==>
      h == Handled(Response(401, MessageBody("User authentication required")), [])
    ensures validationOk && user.Some? && Truthy(user.value.id) && quote.Err? ==>
      h == Handled(Response(500, MessageBody("Failed to create ride: " + quote.error)), [])
    ensures h.response.status == 201 <==>
      validationOk && user.Some? && Truthy(user.value.id) && quote.Ok?
    ensures h.response.status == 201 ==>
      h.response.body
      == RideBody(CreateRide(user.value.id.value, body.pickup, body.destination, body.vehicleType, quote, now).value)
    ensures h.out == []
  {
    CreateRideWith(validationOk, user, body, quote, now, NotifyCaptainsAsWritten(body.pickup, env))
  }

  /** `createRide` with the corrected notification phase: the same answer in
      every case, and after a 201 every captain with a socket in the 2 km
      query result is sent `new-ride`. */
  function CreateRideHandlerCorrected(validationOk: bool, user: Option<Identity>, body: CreateRideBody,
                                      quote: Result<FareQuote, string>, now: int, env: NotifyEnv): (h: Handled)
    ensures h.response == CreateRideHandler(validationOk, user, body, quote, now, env).response
    ensures h.response.status == 201 ==> h.out == NotifyCaptains(body.pickup, env)
    ensures h.response.status != 201 ==> h.out == []
  {
    CreateRideWith(validationOk, user, body, quote, now, NotifyCaptains(body.pickup, env))
  }

  /** Notification failures never fail creation: the corrected handler's
      answer does not depend on anything the notification phase sees. */
  lemma NotificationNeverFailsCreation(validationOk: bool, user: Option<Identity>, body: CreateRideBody,
                                       quote: Result<FareQuote, string>, now: int,
                                       env1: NotifyEnv, env2: NotifyEnv)
    ensures CreateRideHandlerCorrected(validationOk, user, body, quote, now, env1).response
         == CreateRideHandlerCorrected(validationOk, user, body, quote, now, env2).response
  {
  }

  // ---------------------------------------------------------------------
  // confirmRide, startRide, endRide
  // ---------------------------------------------------------------------

  datatype LifecycleOp = ConfirmOp | StartOp | EndOp

  /** The event each handler pushes to the rider. */
  function EventOf(op: LifecycleOp): string
  {
    match op
    case ConfirmOp => "ride-confirmed"
    case StartOp => "ride-started"
    case EndOp => "ride-ended"
  }

  /** `confirmRide`, `startRide` and `endRide`: reject invalid input (400)
      and requests without a captain (401) before the service is called; a
      service failure answers 500 with its message; otherwise answer 200 with
      the ride and push the op's event to the rider when the populated user
      has a socket id. */
  function LifecycleHandler(op: LifecycleOp, validationOk: bool, captain: Option<Identity>,
                            service: Result<RideView, string>): (h: Handled)
    ensures !validationOk ==> h == Handled(Response(400, ValidationErrorsBody), [])
    ensures validationOk && captain.None? ==>
      h == Handled(Response(401, MessageBody("Captain authentication required")), [])
    ensures validationOk && captain.Some? && service.Err? ==>
      h == Handled(Response(500, MessageBody(service.error)), [])
    ensures validationOk && captain.Some? && service.Ok? ==>
      var view := service.value;
      && h.response == Response(200, ViewBody(view))
      && (view.user.Some? && Truthy(view.user.value.socketId) ==>
            h.out == [Send(view.user.value.id, view.user.value.socketId.value, EventOf(op), LifecycleData(view))])
      && (!(view.user.Some? && Truthy(view.user.value.socketId)) ==> h.out == [])
  {
    if !validationOk then Handled(Response(400, ValidationErrorsBody), [])
    else if captain.None? then Handled(Response(401, MessageBody("Captain authentication required")), [])
    else
      match service
      case Err(e) => Handled(Response(500, MessageBody(e)), [])
      case Ok(view) =>
        var out := if view.user.Some? && Truthy(view.user.value.socketId)
                   then [Send(view.user.value.id, view.user.value.socketId.value, EventOf(op), LifecycleData(view))]
                   else [];
        Handled(Response(200, ViewBody(view)), out)
  }

  /** The guard comes first: without a captain the outcome is the same
      whatever the service would have done. */
  lemma LifecycleGuardPrecedesService(op: LifecycleOp, s1: Result<RideView, string>, s2: Result<RideView, string>)
    ensures LifecycleHandler(op, true, None, s1) == LifecycleHandler(op, true, None, s2)
    ensures LifecycleHandler(op, true, None, s1).response.status == 401
  {
  }

  /** The ride service module exports only `getFare` and `createRide`, so the
      lifecycle call throws a TypeError naming the missing function. */
  function ShownServiceOutcome(op: LifecycleOp): (r: Result<RideView, string>)
    ensures r.Err?
  {
    match op
    case ConfirmOp => Err("rideService.confirmRide is not a function")
    case StartOp => Err("rideService.startRide is not a function")
    case EndOp => Err("rideService.endRide is not a function")
  }

  /** With that service, every authenticated lifecycle request answers 500
      and notifies no one. */
  lemma LifecycleWithShownService(op: LifecycleOp, captain: Identity)
    ensures LifecycleHandler(op, true, Some(captain), ShownServiceOutcome(op)).response.status == 500
    ensures LifecycleHandler(op, true, Some(captain), ShownServiceOutcome(op)).out == []
  {
  }

  // ---------------------------------------------------------------------
  // getCaptainActiveRide
  // ---------------------------------------------------------------------

  /** The active-ride query: this captain's ride, confirmed or started. */
  predicate IsActiveFor(ride: Ride, captainId: Option<string>)
  {
    ride.captain == captainId && (ride.status == Confirmed || ride.status == Started)
  }

  /** `findOne` of the active-ride query: the first matching ride in store
      order, if any. */
  function FirstActiveRide(rides: seq<Ride>, captainId: Option<string>): (r: Option<Ride>)
    ensures r.None? <==> forall i :: 0 <= i < |rides| ==> !IsActiveFor(rides[i], captainId)
    ensures r.Some? ==> exists i :: 0 <= i < |rides| && rides[i] == r.value
                                   && forall j :: 0 <= j < i ==> !IsActiveFor(rides[j], captainId)
    ensures r.Some? ==> IsActiveFor(r.value, captainId)
  {
    if rides == [] then None
    else if IsActiveFor(rides[0], captainId) then Some(rides[0])
    else
      var r := FirstActiveRide(rides[1..], captainId);
      assert forall i :: 1 <= i < |rides| ==> rides[i] == rides[1..][i - 1];
      r
  }

  /** `getCaptainActiveRide`: 401 without a captain, 500 with the message of a
      failed query, 404 when the captain has no confirmed or started ride,
      else 200 with the first such ride. */
  function ActiveRideHandler(captain: Option<Identity>, store: Result<seq<Ride>, string>): (resp: Response)
    ensures captain.None? ==> resp == Response(401, MessageBody("Captain authentication required"))
    ensures captain.Some? && store.Err? ==> resp == Response(500, MessageBody(store.error))
    ensures captain.Some? && store.Ok? ==>
      (resp.status == 404 <==> forall i :: 0 <= i < |store.value| ==> !IsActiveFor(store.value[i], captain.value.id))
    ensures resp.status == 200 ==>
      && captain.Some? && store.Ok? && resp.body.ActiveRideBody?
      && resp.body.active in store.value && IsActiveFor(resp.body.active, captain.value.id)
    ensures captain.Some? && store.Ok? && (exists i :: 0 <= i < |store.value| && IsActiveFor(store.value[i], captain.value.id)) ==>
      && resp.status == 200 && resp.body.ActiveRideBody?
      && exists i :: 0 <= i < |store.value| && store.value[i] == resp.body.active
                  && IsActiveFor(store.value[i], captain.value.id)
                  && forall j :: 0 <= j < i ==> !IsActiveFor(store.value[j], captain.value.id)
    ensures resp.status in {200, 401, 404, 500}
  {
    if captain.None? then Response(401, MessageBody("Captain authentication required"))
    else
      match store
      case Err(e) => Response(500, MessageBody(e))
      case Ok(rides) =>
        match FirstActiveRide(rides, captain.value.id)
        case None => Response(404, MessageBody("No active ride found"))
        case Some(ride) => Response(200, ActiveRideBody(ride))
  }

  // ---------------------------------------------------------------------
  // getCaptainRideHistory
  // ---------------------------------------------------------------------

  predicate IsCompletedFor(ride: Ride, captainId: Option<string>)
  {
    ride.captain == captainId && ride.status == Completed
  }

  /** The history query's filter: this captain's completed rides, in store order. */
  function CompletedRides(rides: seq<Ride>, captainId: Option<string>): (r: seq<Ride>)
    ensures forall x :: multiset(r)[x] == if IsCompletedFor(x, captainId) then multiset(rides)[x] else 0
  {
    if rides == [] then []
    else
      var rest := CompletedRides(rides[1..], captainId);
      assert rides == [rides[0]] + rides[1..];
      if IsCompletedFor(rides[0], captainId) then [rides[0]] + rest else rest
  }

  predicate NewestFirst(s: seq<Ride>)
  {
    forall i, j :: 0 <= i < j < |s| ==> s[i].createdAt >= s[j].createdAt
  }

  /** No ride of `s` was created after `t`. */
  predicate NoNewerThan(s: seq<Ride>, t: int)
  {
    forall k :: 0 <= k < |s| ==> s[k].createdAt <= t
  }

  /** Insert `x` into a newest-first list, after every ride at least as new. */
  function InsertByNewest(x: Ride, s: seq<Ride>): (r: seq<Ride>)
    requires NewestFirst(s)
    ensures NewestFirst(r)
    ensures multiset(r) == multiset(s) + multiset{x}
    ensures forall t :: NoNewerThan(s, t) && x.createdAt <= t ==> NoNewerThan(r, t)
  {
    if s == [] || s[0].createdAt < x.createdAt then
      ConsNewestFirst(x, s);
      [x] + s
    else
      var rest := InsertByNewest(x, s[1..]);
      assert s == [s[0]] + s[1..];
      ConsNewestFirst(s[0], rest);
      [s[0]] + rest
  }

  /** Putting a ride in front of a newest-first list that holds nothing newer
      keeps it newest first; and a bound on both bounds the result. */
  lemma {:induction false} ConsNewestFirst(h: Ride, s: seq<Ride>)
    requires NewestFirst(s)
    requires s == [] || s[0].createdAt <= h.createdAt
    ensures NewestFirst([h] + s)
    ensures forall t :: NoNewerThan(s, t) && h.createdAt <= t ==> NoNewerThan([h] + s, t)
  {
    var r := [h] + s;
    assert forall k :: 1 <= k < |r| ==> r[k] == s[k - 1];
  }

  /** `.sort({ createdAt: -1 })`: a newest-first permutation. */
  function SortByNewest(s: seq<Ride>): (r: seq<Ride>)
    ensures NewestFirst(r)
    ensures multiset(r) == multiset(s)
  {
    if s == [] then []
    else
      assert s == [s[0]] + s[1..];
      InsertByNewest(s[0], SortByNewest(s[1..]))
  }

  /** The first `k` rides of a newest-first list are at least as new as every
      ride after them. */
  lemma {:induction false} PrefixIsNewest(sorted: seq<Ride>, k: nat)
    requires NewestFirst(sorted) && k <= |sorted|
    ensures forall x, i :: x in multiset(sorted) - multiset(sorted[..k]) && 0 <= i < k
                           ==> x.createdAt <= sorted[i].createdAt
  {
    assert sorted == sorted[..k] + sorted[k..];
    assert multiset(sorted) - multiset(sorted[..k]) == multiset(sorted[k..]);
    forall x, i | x in multiset(sorted) - multiset(sorted[..k]) && 0 <= i < k
      ensures x.createdAt <= sorted[i].createdAt
    {
      assert x in sorted[k..];
      var j :| 0 <= j < |sorted[k..]| && sorted[k..][j] == x;
      assert sorted[k + j] == x;
    }
  }

  /** A prefix of a list holds no ride more often than the list does. */
  lemma {:induction false} PrefixSubMultiset(s: seq<Ride>, k: nat)
    requires k <= |s|
    ensures multiset(s[..k]) <= multiset(s)
  {
    assert s == s[..k] + s[k..];
  }

  /** `getCaptainRideHistory`'s query: the captain's completed rides, newest
      first, at most 10. The result holds only such rides, as many as exist up
      to 10, and every such ride left out is no newer than any ride kept. */
  function RideHistory(rides: seq<Ride>, captainId: Option<string>): (r: seq<Ride>)
    ensures |r| == if |CompletedRides(rides, captainId)| < 10 then |CompletedRides(rides, captainId)| else 10
    ensures forall i :: 0 <= i < |r| ==> IsCompletedFor(r[i], captainId)
    ensures NewestFirst(r)
    ensures multiset(r) <= multiset(CompletedRides(rides, captainId))
    ensures forall x, i :: x in multiset(CompletedRides(rides, captainId)) - multiset(r) && 0 <= i < |r|
                           ==> x.createdAt <= r[i].createdAt
  {
    var completed := CompletedRides(rides, captainId);
    var sorted := SortByNewest(completed);
    var k := if |completed| < 10 then |completed| else 10;
    SortedPrefixFacts(completed, sorted, k);
    OnlyCompleted(rides, captainId, sorted[..k]);
    sorted[..k]
  }

  /** The facts about a prefix of a sorted copy that the history needs. */
  lemma {:induction false} SortedPrefixFacts(s: seq<Ride>, sorted: seq<Ride>, k: nat)
    requires multiset(sorted) == multiset(s) && NewestFirst(sorted) && k <= |s|
    ensures |sorted| == |s|
    ensures |sorted[..k]| == k
    ensures NewestFirst(sorted[..k])
    ensures multiset(sorted[..k]) <= multiset(s)
    ensures forall x, i :: x in multiset(s) - multiset(sorted[..k]) && 0 <= i < k
                           ==> x.createdAt <= sorted[..k][i].createdAt
  {
    assert |sorted| == |multiset(sorted)| == |multiset(s)| == |s|;
    PrefixIsNewest(sorted, k);
    PrefixSubMultiset(sorted, k);
  }

  /** A sub-multiset of the history filter holds only completed rides of the captain. */
  lemma {:induction false} OnlyCompleted(rides: seq<Ride>, captainId: Option<string>, r: seq<Ride>)
    requires multiset(r) <= multiset(CompletedRides(rides, captainId))
    ensures forall i :: 0 <= i < |r| ==> IsCompletedFor(r[i], captainId)
  {
    forall i | 0 <= i < |r| ensures IsCompletedFor(r[i], captainId) {
      assert r[i] in multiset(r);
      assert multiset(CompletedRides(rides, captainId))[r[i]] > 0;
    }
  }

  /** `getCaptainRideHistory`: 401 without a captain, 500 with the message of
      a failed query, else 200 with the history. */
  function RideHistoryHandler(captain: Option<Identity>, store: Result<seq<Ride>, string>): (resp: Response)
    ensures captain.None? ==> resp == Response(401, MessageBody("Captain authentication required"))
    ensures captain.Some? && store.Err? ==> resp == Response(500, MessageBody(store.error))
    ensures captain.Some? && store.Ok? ==>
      var completed := CompletedRides(store.value, captain.value.id);
      && resp.status == 200 && resp.body.RideListBody?
      && resp.body.rides == RideHistory(store.value, captain.value.id)
      && |resp.body.rides| == (if |completed| < 10 then |completed| else 10)
      && NewestFirst(resp.body.rides)
      && (forall i :: 0 <= i < |resp.body.rides| ==> IsCompletedFor(resp.body.rides[i], captain.value.id))
  {
    if captain.None? then Response(401, MessageBody("Captain authentication required"))
    else
      match store
      case Err(e) => Response(500, MessageBody(e))
      case Ok(rides) => Response(200, RideListBody(RideHistory(rides, captain.value.id)))
  }
}

=== FILE: ride_model.dfy ===
/** The ride document schema (Backend/models/ride.model.js) as a validity
    check: a raw ride record, as built by the service, is accepted exactly
    when the user id casts to an ObjectId, every other required field is
    present, the two enumerations hold and the OTP has exactly six
    characters. Accepted records become typed `Ride` values. */
module RideModel {
  import opened Common

  datatype VehicleType = Solo | Share

  /** The status enumeration, in schema order. */
  datatype Status = Pending | Confirmed | Started | Completed | Cancelled

  function VehicleTypeName(v: VehicleType): string
  {
    match v
    case Solo => "solo"
    case Share => "share"
  }

  /** Reads a vehicle type; only the two enumerated spellings are accepted. */
  function ParseVehicleType(s: string): (r: Option<VehicleType>)
    ensures r.Some? <==> s == "solo" || s == "share"
    ensures r.Some? ==> VehicleTypeName(r.value) == s
  {
    if s == "solo" then Some(Solo)
    else if s == "share" then Some(Share)
    else None
  }

  function StatusName(st: Status): string
  {
    match st
    case Pending => "pending"
    case Confirmed => "confirmed"
    case Started => "started"
    case Completed => "completed"
    case Cancelled => "cancelled"
  }

  /** Reads a status; only the five enumerated spellings are accepted. */
  function ParseStatus(s: string): (r: Option<Status>)
    ensures r.Some? <==>
      s == "pending" || s == "confirmed" || s == "started" || s == "completed" || s == "cancelled"
    ensures r.Some? ==> StatusName(r.value) == s
  {
    if s == "pending" then Some(Pending)
    else if s == "confirmed" then Some(Confirmed)
    else if s == "started" then Some(Started)
    else if s == "completed" then Some(Completed)
    else if s == "cancelled" then Some(Cancelled)
    else None
  }

  /** Naming and reading back a status or vehicle type is the identity. */
  lemma ParseNameRoundTrip(v: VehicleType, st: Status)
    ensures ParseVehicleType(VehicleTypeName(v)) == Some(v)
    ensures ParseStatus(StatusName(st)) == Some(st)
  {
  }

  /** A ride document before validation. Every schema path may be absent;
      `captain` is not declared by the schema but is read by the ride
      controller from stored rides, so it is carried as an optional extra
      field. Timestamps are milliseconds since the epoch. */
  datatype RideRecord = RideRecord(
    userId: Option<string>,
    pickup: Option<string>,
    destination: Option<string>,
    vehicleType: Option<string>,
    fare: Option<int>,
    status: Option<string>,
    otp: Option<string>,
    createdAt: Option<int>,
    captain: Option<string>)

  /** A ride that passed schema validation. */
  datatype Ride = Ride(
    userId: string,
    pickup: string,
    destination: string,
    vehicleType: VehicleType,
    fare: int,
    status: Status,
    otp: string,
    createdAt: int,
    captain: Option<string>)

  /** The schema paths a validation error can name. */
  datatype Path = UserIdPath | PickupPath | DestinationPath | VehicleTypePath
                | FarePath | StatusPath | OtpPath

  /** A `required` string path fails when absent or empty: Mongoose's
      `required` check rejects `""`, exactly as JavaScript truthiness does. */
  predicate RequiredString(s: Option<string>)
  {
    Truthy(s)
  }

  /** The status after the schema default is applied. */
  function StatusOrDefault(rec: RideRecord): string
  {
    if rec.status.Some? then rec.status.value else "pending"
  }

  /** Whether path `p` of `rec` fails its schema rule. `isObjectId` is
      Mongoose's ObjectId cast: which strings it accepts (24 hex digits, and
      for some driver versions any 12-character string) depends on the
      driver, so it is a parameter; a string it rejects is a cast error on
      the `userId` path. */
  predicate Fails(rec: RideRecord, p: Path, isObjectId: string -> bool)
  {
    match p
    case UserIdPath => rec.userId.None? || !isObjectId(rec.userId.value)
    case PickupPath => !RequiredString(rec.pickup)
    case DestinationPath => !RequiredString(rec.destination)
    case VehicleTypePath => !RequiredString(rec.vehicleType) || ParseVehicleType(rec.vehicleType.value).None?
    case FarePath => rec.fare.None?
    case StatusPath => ParseStatus(StatusOrDefault(rec)).None?
    case OtpPath => !(rec.otp.Some? && |rec.otp.value| == 6)
  }

  /** Every path that fails validation, with the defaults for `status` and
      `createdAt` applied first. */
  function Violations(rec: RideRecord, isObjectId: string -> bool): (v: set<Path>)
    ensures UserIdPath in v <==> rec.userId.None? || !isObjectId(rec.userId.value)
    ensures PickupPath in v <==> !RequiredString(rec.pickup)
    ensures DestinationPath in v <==> !RequiredString(rec.destination)
    ensures VehicleTypePath in v <==>
      !RequiredString(rec.vehicleType) || ParseVehicleType(rec.vehicleType.value).None?
    ensures FarePath in v <==> rec.fare.None?
    ensures StatusPath in v <==> ParseStatus(StatusOrDefault(rec)).None?
    ensures OtpPath in v <==> !(rec.otp.Some? && |rec.otp.value| == 6)
  {
    set p | p in {UserIdPath, PickupPath, DestinationPath, VehicleTypePath, FarePath, StatusPath, OtpPath}
            && Fails(rec, p, isObjectId)
  }

  /** Construction and schema validation at save time. `now` is the clock
      value used by the `createdAt` default. On success every schema path of
      the record is carried over, the enumerations are decoded and the OTP
      has six characters, while the undeclared `captain` is dropped, as
      Mongoose's default strict mode does; on failure the error names
      exactly the failing paths. */
  function Validate(rec: RideRecord, now: int, isObjectId: string -> bool): (r: Result<Ride, set<Path>>)
    ensures r.Ok? <==> Violations(rec, isObjectId) == {}
    ensures r.Err? ==> r.error == Violations(rec, isObjectId) && r.error != {}
    ensures r.Ok? ==>
      && Some(r.value.userId) == rec.userId && isObjectId(r.value.userId)
      && Some(r.value.pickup) == rec.pickup && r.value.pickup != ""
      && Some(r.value.destination) == rec.destination && r.value.destination != ""
      && Some(VehicleTypeName(r.value.vehicleType)) == rec.vehicleType
      && Some(r.value.fare) == rec.fare
      && StatusName(r.value.status) == StatusOrDefault(rec)
      && Some(r.value.otp) == rec.otp && |r.value.otp| == 6
      && r.value.createdAt == (if rec.createdAt.Some? then rec.createdAt.value else now)
      && r.value.captain.None?
  {
    var v := Violations(rec, isObjectId);
    if v != {} then Err(v)
    else
      Ok(Ride(rec.userId.value, rec.pickup.value, rec.destination.value,
              ParseVehicleType(rec.vehicleType.value).value, rec.fare.value,
              ParseStatus(StatusOrDefault(rec)).value, rec.otp.value,
              if rec.createdAt.Some? then rec.createdAt.value else now,
              None))
  }

  /** The properties every validated ride has. */
  predicate WellFormed(ride: Ride, isObjectId: string -> bool)
  {
    isObjectId(ride.userId) && ride.pickup != "" && ride.destination != "" && |ride.otp| == 6
    && ride.captain.None?
  }

  /** The document form of a typed ride. */
  function ToRecord(ride: Ride): RideRecord
  {
    RideRecord(Some(ride.userId), Some(ride.pickup), Some(ride.destination),
               Some(VehicleTypeName(ride.vehicleType)), Some(ride.fare),
               Some(StatusName(ride.status)), Some(ride.otp), Some(ride.createdAt),
               ride.captain)
  }

  /** A well-formed ride survives the trip through its document form, and
      exactly the well-formed rides do. */
  lemma ValidateToRecord(ride: Ride, now: int, isObjectId: string -> bool)
    ensures Validate(ToRecord(ride), now, isObjectId) == Ok(ride) <==> WellFormed(ride, isObjectId)
  {
    ParseNameRoundTrip(ride.vehicleType, ride.status);
  }

  /** Every ride accepted by validation is well formed, and its document form
      agrees with the record it came from once defaults are filled in. */
  lemma {:induction false} ValidatedIsWellFormed(rec: RideRecord, now: int, isObjectId: string -> bool)
    requires Validate(rec, now, isObjectId).Ok?
    ensures WellFormed(Validate(rec, now, isObjectId).value, isObjectId)
    ensures ToRecord(Validate(rec, now, isObjectId).value)
         == rec.(status := Some(StatusOrDefault(rec)),
                 createdAt := Some(if rec.createdAt.Some? then rec.createdAt.value else now),
                 captain := None)
  {
    var ride := Validate(rec, now, isObjectId).value;
    ParseNameRoundTrip(ride.vehicleType, ride.status);
  }
}

=== FILE: sockets.dfy ===
/** The connection registry of the real-time channel (Backend/socket.js).
    Every user and captain account may hold the id of its current socket;
    the event handlers are transitions of this registry that also produce
    the messages the server emits. The account collections stand for the
    user and captain documents; only the fields the handlers touch are kept. */
module Sockets {
  import opened Common

  /** A captain's last reported position; either coordinate may be NaN,
      since `typeof NaN` is 'number'. */
  datatype Location = Location(ltd: Num, lng: Num)

  datatype Account = Account(socketId: Option<string>, location: Option<Location>)

  datatype Role = UserRole | CaptainRole

  datatype Registry = Registry(users: map<string, Account>, captains: map<string, Account>)
  {
    function Accounts(role: Role): map<string, Account>
    {
      match role
      case UserRole => users
      case CaptainRole => captains
    }

    function WithAccounts(role: Role, m: map<string, Account>): (r: Registry)
      ensures r.Accounts(role) == m
      ensures forall other :: other != role ==> r.Accounts(other) == Accounts(other)
    {
      match role
      case UserRole => this.(users := m)
      case CaptainRole => this.(captains := m)
    }
  }

  /** Something the server emits: an `error` event back to the calling socket,
      or a named event pushed to a socket id on behalf of an account. */
  datatype Outgoing<P> = EmitError(message: string)
                       | Send(recipient: string, socketId: string, event: string, data: P)

  /** The data of the events the socket handlers push. */
  datatype SocketPayload = RideRequestData(userId: Option<string>, rideDetails: string)
                         | AcceptData(captainId: Option<string>, rideId: Option<string>)
                         | ConfirmData(userId: Option<string>, rideId: Option<string>)
                         | StatusData(rideId: Option<string>, status: Option<string>)

  /** The result of one handler: the new registry and what was emitted. */
  datatype Step = Step(registry: Registry, out: seq<Outgoing<SocketPayload>>)

  /** `m2` is `m1` with only the socket id of `id` changed, to `socket`. */
  predicate SocketSetOnly(m1: map<string, Account>, m2: map<string, Account>, id: string, socket: Option<string>)
  {
    && id in m1
    && m2.Keys == m1.Keys
    && m2[id] == m1[id].(socketId := socket)
    && forall other :: other in m1 && other != id ==> m2[other] == m1[other]
  }

  // ---------------------------------------------------------------------
  // join
  // ---------------------------------------------------------------------

  datatype JoinData = JoinData(userId: Option<string>, userType: Option<string>)

  function RoleOf(userType: string): Option<Role>
  {
    if userType == "user" then Some(UserRole)
    else if userType == "captain" then Some(CaptainRole)
    else None
  }

  /** A join that changes the registry: both fields present, a known account type
      and an existing account of that type. */
  predicate JoinAccepted(reg: Registry, data: JoinData)
  {
    && Truthy(data.userId) && Truthy(data.userType)
    && RoleOf(data.userType.value).Some?
    && data.userId.value in reg.Accounts(RoleOf(data.userType.value).value)
  }

  /** The `join` handler: record `socket` as the account's current socket,
      overwriting any earlier one; every other account is untouched. Missing
      fields, an unknown type or an unknown account emit one error and change
      nothing. */
  function Join(reg: Registry, socket: string, data: JoinData): (s: Step)
    ensures JoinAccepted(reg, data) ==>
      var role := RoleOf(data.userType.value).value;
      && s.out == []
      && SocketSetOnly(reg.Accounts(role), s.registry.Accounts(role), data.userId.value, Some(socket))
      && forall other :: other != role ==> s.registry.Accounts(other) == reg.Accounts(other)
    ensures !JoinAccepted(reg, data) ==> s.registry == reg && |s.out| == 1 && s.out[0].EmitError?
    ensures !Truthy(data.userId) || !Truthy(data.userType) ==>
      s.out == [EmitError("User ID and userType are required")]
    ensures Truthy(data.userId) && Truthy(data.userType) && RoleOf(data.userType.value).None? ==>
      s.out == [EmitError("Invalid userType")]
    ensures Truthy(data.userId) && data.userType == Some("user") && data.userId.value !in reg.users ==>
      s.out == [EmitError("User not found")]
    ensures Truthy(data.userId) && data.userType == Some("captain") && data.userId.value !in reg.captains ==>
      s.out == [EmitError("Captain not found")]
  {
    if !Truthy(data.userId) || !Truthy(data.userType) then
      Step(reg, [EmitError("User ID and userType are required")])
    else
      match RoleOf(data.userType.value)
      case None => Step(reg, [EmitError("Invalid userType")])
      case Some(role) =>
        var m := reg.Accounts(role);
        var id := data.userId.value;
        if id !in m then
          Step(reg, [EmitError(if role == UserRole then "User not found" else "Captain not found")])
        else
          Step(reg.WithAccounts(role, m[id := m[id].(socketId := Some(socket))]), [])
  }

  // ---------------------------------------------------------------------
  // update-location-captain
  // ---------------------------------------------------------------------

  datatype LocationInput = LocationInput(ltd: JsValue, lng: JsValue)

  datatype LocationData = LocationData(userId: Option<string>, location: Option<LocationInput>)

  /** The handler's shape check: an id, a location, and numbers for both
      coordinates. */
  predicate LocationWellTyped(data: LocationData)
  {
    Truthy(data.userId) && data.location.Some?
    && data.location.value.ltd.Number? && data.location.value.lng.Number?
  }

  /** The `update-location-captain` handler: store the new position of an
      existing captain and change nothing else, not even that captain's
      socket. Malformed data or an unknown captain emit one error and change
      nothing. */
  function UpdateLocation(reg: Registry, data: LocationData): (s: Step)
    ensures !LocationWellTyped(data) ==> s == Step(reg, [EmitError("Invalid location data")])
    ensures LocationWellTyped(data) && data.userId.value !in reg.captains ==>
      s == Step(reg, [EmitError("Captain not found")])
    ensures LocationWellTyped(data) && data.userId.value in reg.captains ==>
      var id := data.userId.value;
      && s.out == []
      && s.registry.users == reg.users
      && s.registry.captains.Keys == reg.captains.Keys
      && s.registry.captains[id].socketId == reg.captains[id].socketId
      && s.registry.captains[id].location
         == Some(Location(data.location.value.ltd.n, data.location.value.lng.n))
      && forall other :: other in reg.captains && other != id ==>
           s.registry.captains[other] == reg.captains[other]
  {
    if !LocationWellTyped(data) then Step(reg, [EmitError("Invalid location data")])
    else
      var id := data.userId.value;
      if id !in reg.captains then Step(reg, [EmitError("Captain not found")])
      else
        var loc := Location(data.location.value.ltd.n, data.location.value.lng.n);
        Step(reg.(captains := reg.captains[id := reg.captains[id].(location := Some(loc))]), [])
  }

  // ---------------------------------------------------------------------
  // ride-request
  // ---------------------------------------------------------------------

  /** Captains whose socket id is set (the `socketId: { $ne: null }` query). */
  function OnlineCaptains(reg: Registry): set<string>
  {
    set c | c in reg.captains && reg.captains[c].socketId.Some?
  }

  /** The `ride-request` handler: one `new-ride-request` to every online
      captain, on that captain's socket, and to nobody else. */
  method RideRequest(reg: Registry, userId: Option<string>, rideDetails: string)
    returns (out: seq<Outgoing<SocketPayload>>)
    ensures forall i :: 0 <= i < |out| ==>
      && out[i].Send?
      && out[i].recipient in OnlineCaptains(reg)
      && Some(out[i].socketId) == reg.captains[out[i].recipient].socketId
      && out[i].event == "new-ride-request"
      && out[i].data == RideRequestData(userId, rideDetails)
    ensures forall i, j :: 0 <= i < j < |out| ==> out[i].recipient != out[j].recipient
    ensures forall c :: c in OnlineCaptains(reg) ==> exists i :: 0 <= i < |out| && out[i].recipient == c
  {
    var pending := reg.captains.Keys;
    out := [];
    while pending != {}
      invariant pending <= reg.captains.Keys
      invariant forall i :: 0 <= i < |out| ==>
        && out[i].Send?
        && out[i].recipient in OnlineCaptains(reg)
        && out[i].recipient !in pending
        && Some(out[i].socketId) == reg.captains[out[i].recipient].socketId
        && out[i].event == "new-ride-request"
        && out[i].data == RideRequestData(userId, rideDetails)
      invariant forall i, j :: 0 <= i < j < |out| ==> out[i].recipient != out[j].recipient
      invariant forall c :: c in OnlineCaptains(reg) && c !in pending ==>
        exists i :: 0 <= i < |out| && out[i].recipient == c
      decreases pending
    {
      var c :| c in pending;
      var account := reg.captains[c];
      var sent := out;
      if account.socketId.Some? {
        out := out + [Send(c, account.socketId.value, "new-ride-request", RideRequestData(userId, rideDetails))];
      }
      forall d | d in OnlineCaptains(reg) && d !in pending - {c}
        ensures exists i :: 0 <= i < |out| && out[i].recipient == d
      {
        if d == c {
          assert out[|out| - 1].recipient == c;
        } else {
          var i :| 0 <= i < |sent| && sent[i].recipient == d;
          assert out[i] == sent[i];
        }
      }
      pending := pending - {c};
    }
  }

  // ---------------------------------------------------------------------
  // ride-accept, ride-confirm, ride-status-update
  // ---------------------------------------------------------------------

  /** The looked-up account exists and has a truthy socket id. */
  predicate Online(accounts: map<string, Account>, id: Option<string>)
  {
    id.Some? && id.value in accounts && Truthy(accounts[id.value].socketId)
  }

  /** `sendMessageToSocketId` to an account looked up by id, if the account
      exists and its socket id is truthy. */
  function NotifyAccount(accounts: map<string, Account>, id: Option<string>, event: string,
                         data: SocketPayload): (out: seq<Outgoing<SocketPayload>>)
    ensures |out| <= 1
    ensures |out| == 1 <==> id.Some? && id.value in accounts && Truthy(accounts[id.value].socketId)
    ensures |out| == 1 ==>
      out[0] == Send(id.value, accounts[id.value].socketId.value, event, data)
  {
    if id.Some? && id.value in accounts && Truthy(accounts[id.value].socketId) then
      [Send(id.value, accounts[id.value].socketId.value, event, data)]
    else []
  }

  /** `ride-accept`: tell the user that a captain accepted, exactly when the
      user has a socket. */
  function RideAccept(reg: Registry, captainId: Option<string>, userId: Option<string>,
                      rideId: Option<string>): (out: seq<Outgoing<SocketPayload>>)
    ensures |out| == (if Online(reg.users, userId) then 1 else 0)
    ensures Online(reg.users, userId) ==>
      out[0] == Send(userId.value, reg.users[userId.value].socketId.value, "ride-accepted",
                     AcceptData(captainId, rideId))
  {
    NotifyAccount(reg.users, userId, "ride-accepted", AcceptData(captainId, rideId))
  }

  /** `ride-confirm`: tell the captain that the user confirmed, exactly when
      the captain has a socket. */
  function RideConfirm(reg: Registry, userId: Option<string>, captainId: Option<string>,
                       rideId: Option<string>): (out: seq<Outgoing<SocketPayload>>)
    ensures |out| == (if Online(reg.captains, captainId) then 1 else 0)
    ensures Online(reg.captains, captainId) ==>
      out[0] == Send(captainId.value, reg.captains[captainId.value].socketId.value, "ride-confirmed",
                     ConfirmData(userId, rideId))
  {
    NotifyAccount(reg.captains, captainId, "ride-confirmed", ConfirmData(userId, rideId))
  }

  /** `ride-status-update`: tell the user, then the captain, the new status;
      each gets the message exactly when it has a socket. */
  function RideStatusUpdate(reg: Registry, rideId: Option<string>, userId: Option<string>,
                            captainId: Option<string>, status: Option<string>): (out: seq<Outgoing<SocketPayload>>)
    ensures |out| == (if Online(reg.users, userId) then 1 else 0) + (if Online(reg.captains, captainId) then 1 else 0)
    ensures Online(reg.users, userId) ==>
      out[0] == Send(userId.value, reg.users[userId.value].socketId.value, "ride-status", StatusData(rideId, status))
    ensures Online(reg.captains, captainId) ==>
      out[|out| - 1]
      == Send(captainId.value, reg.captains[captainId.value].socketId.value, "ride-status", StatusData(rideId, status))
  {
    NotifyAccount(reg.users, userId, "ride-status", StatusData(rideId, status))
    + NotifyAccount(reg.captains, captainId, "ride-status", StatusData(rideId, status))
  }

  // ---------------------------------------------------------------------
  // disconnect
  // ---------------------------------------------------------------------

  /** Clear `socket` from every account of one collection that points at it. */
  function ClearSocket(m: map<string, Account>, socket: string): (m2: map<string, Account>)
    ensures m2.Keys == m.Keys
    ensures forall id :: id in m ==> m2[id].socketId != Some(socket)
    ensures forall id :: id in m ==> m2[id].location == m[id].location
    ensures forall id :: id in m && m[id].socketId != Some(socket) ==> m2[id] == m[id]
    ensures forall id :: id in m && m[id].socketId == Some(socket) ==> m2[id].socketId.None?
  {
    map id | id in m :: if m[id].socketId == Some(socket) then m[id].(socketId := None) else m[id]
  }

  /** The `disconnect` handler: every user and captain whose socket id is the
      closed socket loses it; all other accounts are untouched. */
  function Disconnect(reg: Registry, socket: string): (r: Registry)
    ensures forall role :: r.Accounts(role) == ClearSocket(reg.Accounts(role), socket)
  {
    Registry(ClearSocket(reg.users, socket), ClearSocket(reg.captains, socket))
  }

  /** Disconnecting twice is the same as disconnecting once. */
  lemma DisconnectIdempotent(reg: Registry, socket: string)
    ensures Disconnect(Disconnect(reg, socket), socket) == Disconnect(reg, socket)
  {
    var once := Disconnect(reg, socket);
    assert ClearSocket(once.users, socket) == once.users;
    assert ClearSocket(once.captains, socket) == once.captains;
  }

  /** After a disconnect no online captain is reached through the closed
      socket, so a later ride request cannot be pushed to it. */
  lemma DisconnectTakesCaptainsOffline(reg: Registry, socket: string)
    ensures forall c :: c in OnlineCaptains(Disconnect(reg, socket)) ==>
      Disconnect(reg, socket).captains[c].socketId != Some(socket)
    ensures OnlineCaptains(Disconnect(reg, socket)) <= OnlineCaptains(reg)
  {
  }

  /** A join on a socket followed by that socket's disconnect leaves the
      account offline and every other account as the disconnect alone would. */
  lemma JoinThenDisconnect(reg: Registry, socket: string, data: JoinData)
    requires JoinAccepted(reg, data)
    ensures var role := RoleOf(data.userType.value).value;
      Disconnect(Join(reg, socket, data).registry, socket).Accounts(role)[data.userId.value].socketId.None?
    ensures var role := RoleOf(data.userType.value).value;
      forall id :: id in reg.Accounts(role) && id != data.userId.value ==>
        Disconnect(Join(reg, socket, data).registry, socket).Accounts(role)[id]
        == Disconnect(reg, socket).Accounts(role)[id]
  {
  }
}
